=== FILE: README.md ===
# DigiPen Graphics Library — a Dafny model of its core

This project models the core of the DigiPen Graphics Library (DGL). DGL is a
small C API over Direct3D 11 for student games. The model covers:

- the Direct3D wrapper (`D3DInterface`). It creates the device, its immediate
  context, the swap chain, the render target, the rasterizer, blend, sampler
  and depth-stencil states, and the default shaders. It brackets each frame,
  selects blend, sampler and shader modes, uploads the per-object constants,
  reacts to a window resize and releases everything;
- the graphics system (`GraphicsSystem`). It initializes and shuts down the
  wrapper and counts textures and meshes that are handed out and not yet
  released;
- the mesh manager (`MeshManager`). It accumulates vertices, makes plain and
  indexed meshes with their GPU buffers, releases them and issues the calls
  that draw a mesh;
- the texture manager: textures from an image file or from pixels in memory;
- the pixel shader manager: compile, create, insert into the loaded set,
  release;
- the input state: current and previous key tables, key edges, mouse wheel;
- the window-message handler of the window system;
- the shared error slot.

## How the backend is modelled

The GPU, the loaders and the compiler are not code this model can see. They
are represented by three objects in module `Backend`:

- A `Factory` receives every creation or other fallible request, logs it and
  answers with a status code. The codes come from a fixed tape given when the
  factory is made. Past the end of the tape every request succeeds. A code is
  a failure when it is negative, as with `HRESULT`. A successful creation
  hands out a handle with a fresh id. A whole run of the library is therefore
  determined by the tape, and every failure path can be stated.
- A `Ledger` records every `Release()` made through an interface pointer, by
  object id and in order. Leaks and double releases can be read off it. The
  order in which table entries are released is the model's choice (see "Left out").
- A `CallLog` records every call made on the immediate context and the swap
  chain.

Each multi-step initialization is specified against a list of requests it
makes (a "plan", such as `InitPlan` or `ShaderPlan`). The predicate
`StepDone` says three things: the requests made are a prefix of the plan;
each request was made only when all before it succeeded; the result is 1
exactly when the last request failed. `Reported` says that the error slot
holds the step's message followed by the failing status code in decimal.

Inputs that the library takes from other subsystems become parameters:

- the camera's world matrix (`world`);
- the number of key slots (`keyCount`);
- the device's feature level;
- the window message and its `WPARAM`.

## Model

| member | source | states |
|---|---|---|
| Errors.ErrorHandler.constructor | src/Error.cpp:20-23 | a new error slot holds the empty message |
| Errors.ErrorHandler.SetError | src/Error.cpp:40-46 | the slot holds exactly the text given |
| Errors.ErrorHandler.SetErrorCode | src/Error.cpp:32-37 | the slot holds the text followed by the status code in decimal, and that suffix parses back to the code |
| Errors.ErrorHandler.GetLastError | src/Error.cpp:26-29 | reading the slot returns the stored message |
| Errors.DecimalString | src/Error.cpp:32-37 | the rendering of a code is non-empty, starts with '-' exactly for a negative code, and is otherwise all digits |
| Errors.DigitsRoundTrip | src/Error.cpp:32-37 | parsing the digits of a natural number gives the number back |
| Errors.DecimalRoundTrip | src/Error.cpp:32-37 | parsing the rendering of any code gives the code back, so reports are unambiguous |
| WideStrings.WideChar | DigiPen_Graphics_Library/src/Texture.cpp:32-33 | a byte below 0x80 keeps its value; a higher byte, as a signed `char`, sign-extends to 0xFF80 or above |
| WideStrings.Widened | DigiPen_Graphics_Library/src/Texture.cpp:30-33 | the wide name has the same length, each unit the widening of the byte at its position |
| WideStrings.NarrowWidened | DigiPen_Graphics_Library/src/Shader.cpp:16-21 | truncating every widened unit gives the original name back |
| WideStrings.WidenedInjective | DigiPen_Graphics_Library/src/Shader.cpp:16-21 | two names widen to the same wide string only when they are the same name |
| Dgl.U32 | DigiPen_Graphics_Library/src/Mesh.cpp:45 | the conversion to `unsigned` lies below 2^32, keeps values in range, and is congruent to its argument modulo 2^32 |
| Textures.RowPitch | DigiPen_Graphics_Library/src/Texture.cpp:88 | the row pitch is an `unsigned` multiple of 4, equal to width × 4 for widths that fit |
| Textures.NegativeWidthPitch | DigiPen_Graphics_Library/src/Texture.cpp:79-88 | a negative width is not rejected: every width from -2^30 to -1 gives the wrapped pitch 2^32 + 4 × width, for instance 2^32 - 4 for width -1 |
| Textures.WidenFileName | DigiPen_Graphics_Library/src/Texture.cpp:29-33 | the loop appends, one by one, the widening of every byte of the name |
| Textures.ReleaseTexture | DigiPen_Graphics_Library/src/Texture.cpp:137-150 | a null texture releases nothing; otherwise the view, then the texture, each only when present |
| Textures.LoadTexture | DigiPen_Graphics_Library/src/Texture.cpp:18-66 | no device: "Graphics is not initialized" and no request. Otherwise one load request with the widened name. On failure, no texture, nothing released, and the message names the file and the code. On success, a fresh texture whose texture and view are new objects |
| Textures.CreatePart | DigiPen_Graphics_Library/src/Texture.cpp:103-130 | one creation of the two-step plan, stored in the texture. A failure ends the plan, is reported with its code and releases what the texture holds |
| Textures.LoadTextureFromMemory | DigiPen_Graphics_Library/src/Texture.cpp:69-134 | no device: reported. Missing pixels or a zero size: no texture and no report. Otherwise the texture, then its view, are requested; the result is null exactly when a request failed. A failed texture is reported and releases nothing. A failed view is reported and releases the texture. Success gives both objects |
| Shaders.ProfileFor | DigiPen_Graphics_Library/src/Shader.cpp:28 | "ps_5_0" exactly on feature level 11.0 and above, "ps_4_0" exactly below it |
| Shaders.WidenName | DigiPen_Graphics_Library/src/Shader.cpp:16-21 | the wide buffer, filled in place by the loop, equals the widened file name |
| Shaders.Insert | DigiPen_Graphics_Library/src/Shader.cpp:67-68 | inserting adds the file name; an existing entry for that name is kept unchanged; no other entry changes |
| Shaders.InsertThenErase | DigiPen_Graphics_Library/src/Shader.cpp:67-83 | erasing a shader just inserted under a new name gives back the set as it was |
| Shaders.InsertIdempotent | DigiPen_Graphics_Library/src/Shader.cpp:67-68 | a second insertion under the same name leaves the set as the first left it |
| Shaders.ShaderManager.LoadPixelShader | DigiPen_Graphics_Library/src/Shader.cpp:14-69 | the file is always compiled with the widened name and the profile of the feature level. A failed compilation returns none and leaves the set; it releases its diagnostics buffer, which exists unless the code says the file could not be opened. A failed shader creation returns none and leaves the set. Success inserts, keeping an earlier entry for the same name, and returns the entry the set holds. The compiled bytecode is never released |
| Shaders.ShaderManager.Release | DigiPen_Graphics_Library/src/Shader.cpp:71-84 | no shader, no effect; otherwise its GPU object is released when present and its name is no longer in the set |
| Meshes.Snapshot | DigiPen_Graphics_Library/src/Mesh.cpp:45-48 | the mesh copies as many vertices as the list length converted to `unsigned`: a prefix of the list, the whole list when its length fits |
| Meshes.SnapshotNonEmpty | DigiPen_Graphics_Library/src/Mesh.cpp:35-48 | a non-empty list whose length fits in 32 bits gives a non-empty copy of the same length |
| Meshes.TopologyFor | DigiPen_Graphics_Library/src/Mesh.cpp:157-177 | a topology is chosen exactly for the five draw modes |
| Meshes.TopologyRoundTrip | DigiPen_Graphics_Library/src/Mesh.cpp:157-177 | a mode selects a topology exactly when it is that topology's draw mode: modes and topologies correspond one to one |
| Meshes.BoundView | DigiPen_Graphics_Library/src/Mesh.cpp:184-190 | the texture's view is bound when the pixel mode is not the colour mode and a texture is set, and no view otherwise |
| Meshes.DrawCalls | DigiPen_Graphics_Library/src/Mesh.cpp:206-214 | a plain draw of all vertices for a mesh without indices; otherwise the index buffer is bound, then an indexed draw of all indices |
| Meshes.BindCalls | DigiPen_Graphics_Library/src/Mesh.cpp:156-200 | the topology call is present exactly for a valid mode, followed by the vertex shader, pixel shader, view and vertex buffer bindings |
| Meshes.InvalidModeDraws | DigiPen_Graphics_Library/src/Mesh.cpp:174-200 | an invalid mode issues the same bindings as a valid one, without the topology call |
| Meshes.ReleaseMesh | DigiPen_Graphics_Library/src/Mesh.cpp:125-144 | a null mesh releases nothing; otherwise the vertex buffer, then the index buffer, each only when present |
| Meshes.AddVertexBuffer | DigiPen_Graphics_Library/src/Mesh.cpp:50-70 | one vertex-buffer request with the mesh's vertices. Success stores the buffer. Failure reports the code and releases nothing, since the mesh holds no buffer yet |
| Meshes.AddIndexBuffer | DigiPen_Graphics_Library/src/Mesh.cpp:101-119 | one index-buffer request with the mesh's indices. Failure reports the code and releases the mesh's vertex buffer |
| Meshes.MeshManager.CreateMesh | DigiPen_Graphics_Library/src/Mesh.cpp:26-73 | no device, or no vertices: each reported with its own message, no request. Otherwise one vertex-buffer request with the copy of the list. Failure is reported and gives no mesh. Success gives a fresh, unindexed mesh holding the copy and the new buffer. The accumulator is kept |
| Meshes.MeshManager.CreateMeshIndexed | DigiPen_Graphics_Library/src/Mesh.cpp:76-122 | no device, then no indices, then no vertices: each reported, no request. Otherwise the vertex buffer, then the index buffer from the first `indexCount` indices. A failure of either is reported; a failed index buffer releases the vertex buffer. When both requests succeed a mesh is returned, holding both buffers |
| Meshes.ApplyTopology | DigiPen_Graphics_Library/src/Mesh.cpp:156-177 | a valid mode issues its topology and reports nothing; an invalid mode issues nothing and is reported |
| Meshes.BindResources | DigiPen_Graphics_Library/src/Mesh.cpp:179-200 | the shaders, the view and the vertex buffer are bound, in that order |
| Meshes.IssueDraw | DigiPen_Graphics_Library/src/Mesh.cpp:205-214 | the log grows by the draw calls of the mesh |
| Meshes.BindForDraw | DigiPen_Graphics_Library/src/Mesh.cpp:156-200 | the log grows by the bindings of the mode; the error slot changes only for an invalid mode |
| Meshes.DrawWithContext | DigiPen_Graphics_Library/src/Mesh.cpp:156-214 | with a context: bindings, then the constant upload and binding, then the draw calls |
| Meshes.DrawMesh | DigiPen_Graphics_Library/src/Mesh.cpp:147-215 | no context: reported and nothing issued, even for a null mesh. Otherwise the full sequence of draw calls, with the view chosen by the current pixel mode. An invalid mode is reported but the draw goes on |
| Input.SetKey | DigiPen_Graphics_Library/src/InputSystem.cpp:71-80 | only the named key changes, to the given state; a key outside the table changes nothing |
| Input.SetKeyTwice | DigiPen_Graphics_Library/src/InputSystem.cpp:71-80 | setting a key twice keeps only the second state |
| Input.InputSystem.constructor | DigiPen_Graphics_Library/src/InputSystem.cpp:21-24 | every key starts up in both tables and the wheel delta is 0; these initial values are assumed (see "Left out") |
| Input.InputSystem.Triggered | DigiPen_Graphics_Library/src/InputSystem.cpp:102-112 | a triggered key is down and not released |
| Input.InputSystem.Released | DigiPen_Graphics_Library/src/InputSystem.cpp:115-125 | a released key is not down |
| Input.InputSystem.Update | DigiPen_Graphics_Library/src/InputSystem.cpp:27-50 | the previous table becomes a copy of the current one, which is unchanged; afterwards no key is triggered or released; the wheel delta is 0 |
| Input.InputSystem.SetMouseScrollDelta | DigiPen_Graphics_Library/src/InputSystem.cpp:53-86 | the delta set is the delta read back |
| Input.InputSystem.SetKeyState | DigiPen_Graphics_Library/src/InputSystem.cpp:71-80 | the table is the old one with the key set; a key in range reads back as set and reports nothing; a key out of range is reported |
| Input.InputSystem.KeyDown | DigiPen_Graphics_Library/src/InputSystem.cpp:89-99 | a key in range answers whether it is down; out of range, false and reported |
| Input.InputSystem.KeyTriggered | DigiPen_Graphics_Library/src/InputSystem.cpp:102-112 | a key in range answers whether it went down since the last frame; out of range, false and reported |
| Input.InputSystem.KeyReleased | DigiPen_Graphics_Library/src/InputSystem.cpp:115-125 | a key in range answers whether it went up since the last frame; out of range, false and reported |
| WindowMessages.KeyOf | DigiPen_Graphics_Library/src/WindowsSystem.cpp:252-256 | a key message names the low byte of its parameter; small parameters name themselves |
| WindowMessages.WheelDelta | DigiPen_Graphics_Library/src/WindowsSystem.cpp:270 | the high word of the parameter read as a signed 16-bit value |
| WindowMessages.TruncDiv | DigiPen_Graphics_Library/src/WindowsSystem.cpp:270 | C integer division, rounding toward zero for negative operands |
| WindowMessages.WheelSteps | DigiPen_Graphics_Library/src/WindowsSystem.cpp:270 | whole notches lie in -273..273 and have the sign of the delta |
| WindowMessages.WheelDeltaRoundTrip | DigiPen_Graphics_Library/src/WindowsSystem.cpp:270 | any delta packed into the high word is read back, whatever the key flags in the low word |
| WindowMessages.WheelNotch | DigiPen_Graphics_Library/src/WindowsSystem.cpp:270 | one notch forward scrolls by 1 and one notch back by -1 |
| WindowMessages.WindowsSystem.GetWindowExists | DigiPen_Graphics_Library/src/WindowsSystem.cpp:121-124 | the window exists exactly when its handle is not null |
| WindowMessages.WindowsSystem.HandleWindowsMessage | DigiPen_Graphics_Library/src/WindowsSystem.cpp:212-278 | the result slot is 0, and the message is handled exactly when it is one of the eleven listed. Destroy and quit clear the handle, so the window no longer exists. The camera is asked to resize on maximize, on restore outside a drag, and at the end of a drag. Key messages set the key of the low byte. System key messages set only F10. The wheel sets whole notches. Nothing else changes |
| D3DInterface.BlendModeRoundTrip | DigiPen_Graphics_Library/src/D3dInterface.cpp:83-114 | each blend state is selected by exactly one public mode, and only the four enumerated modes select one |
| D3DInterface.SampleModeRoundTrip | DigiPen_Graphics_Library/src/D3dInterface.cpp:117-160 | each filter is selected by exactly one sample mode, and only the two enumerated modes select one |
| D3DInterface.AddressModeRoundTrip | DigiPen_Graphics_Library/src/D3dInterface.cpp:117-160 | each addressing is selected by exactly one address mode, and only the four enumerated modes select one |
| D3DInterface.TouchBlend | DigiPen_Graphics_Library/src/D3dInterface.cpp:98-100 | indexing the table inserts the key when absent and keeps every value it reads |
| D3DInterface.TouchSampler | DigiPen_Graphics_Library/src/D3dInterface.cpp:143-147 | indexing the sampler table inserts the key when absent and keeps every value it reads |
| D3DInterface.StoreSampler | DigiPen_Graphics_Library/src/D3dInterface.cpp:786-897 | storing a created sampler extends its filter's finished prefix and never disturbs the other filter |
| D3DInterface.FilterOrder | DigiPen_Graphics_Library/src/D3dInterface.cpp:786-897 | point samplers are requested first, then linear, each as wrap, clamp, mirror, mirror-once |
| D3DInterface.StepStops | DigiPen_Graphics_Library/src/D3dInterface.cpp:341-369 | a step that failed ends the whole sequence of steps with result 1 |
| D3DInterface.StepsThen | DigiPen_Graphics_Library/src/D3dInterface.cpp:341-369 | a step that succeeded followed by another is one step over both plans, with the second's result |
| D3DInterface.SafeRelease | DigiPen_Graphics_Library/src/D3dInterface.cpp:29-33 | releases through a non-null pointer only, and the pointer becomes null |
| D3DInterface.D3D.StartUpdate | DigiPen_Graphics_Library/src/D3dInterface.cpp:38-59 | no context: reported, nothing issued. Otherwise clear, clear depth when present, bind the layout and targets, and open the frame |
| D3DInterface.D3D.EndUpdate | DigiPen_Graphics_Library/src/D3dInterface.cpp:62-80 | no swap chain, or no open frame: each reported, nothing presented. Otherwise present once and close the frame. The `Valid` invariant keeps presents at most starts |
| D3DInterface.D3D.SetBlendMode | DigiPen_Graphics_Library/src/D3dInterface.cpp:83-114 | no context: reported. A valid mode binds its table entry, null when missing, and inserts the key. An invalid mode is reported and binds null |
| D3DInterface.D3D.SetSamplerState | DigiPen_Graphics_Library/src/D3dInterface.cpp:117-160 | no context, or invalid sample mode: reported, nothing bound. A valid pair binds its entry. An invalid address mode is reported and binds a null array |
| D3DInterface.D3D.GetPixelShaderMode | DigiPen_Graphics_Library/src/D3dInterface.cpp:163-166 | returns the current pixel mode |
| D3DInterface.D3D.SetPixelShaderMode | DigiPen_Graphics_Library/src/D3dInterface.cpp:169-179 | an enumerated mode is stored; another is reported and ignored; modes stay in range |
| D3DInterface.D3D.GetVertexShaderMode | DigiPen_Graphics_Library/src/D3dInterface.cpp:182-185 | returns the current vertex mode |
| D3DInterface.D3D.SetVertexShaderMode | DigiPen_Graphics_Library/src/D3dInterface.cpp:188-198 | an enumerated mode is stored; another is reported and ignored; modes stay in range |
| D3DInterface.D3D.SetCustomPixelShader | DigiPen_Graphics_Library/src/D3dInterface.cpp:201-211 | the custom pixel shader is the given shader's object, null for no shader |
| D3DInterface.D3D.SetCustomVertexShader | DigiPen_Graphics_Library/src/D3dInterface.cpp:214-224 | the custom vertex shader is the given object, null for none |
| D3DInterface.D3D.GetCurrentPixelShader | DigiPen_Graphics_Library/src/D3dInterface.cpp:227-238 | the shader of the current mode, and null exactly when the mode is out of range or its shader is null |
| D3DInterface.D3D.GetCurrentVertexShader | DigiPen_Graphics_Library/src/D3dInterface.cpp:241-250 | the shader of the current mode, and null exactly when the mode is out of range or its shader is null |
| D3DInterface.D3D.UpdateConstantBuffer | DigiPen_Graphics_Library/src/D3dInterface.cpp:253-265 | no context: reported. Otherwise the constants are uploaded to the buffer, which is bound |
| D3DInterface.D3D.SetViewport | DigiPen_Graphics_Library/src/D3dInterface.cpp:762-783 | the viewport is set only when a context exists |
| D3DInterface.D3D.ApplyViewport | DigiPen_Graphics_Library/src/D3dInterface.cpp:364-366 | the viewport is set and the world matrix is taken into the constants |
| D3DInterface.D3D.CreateDevice | DigiPen_Graphics_Library/src/D3dInterface.cpp:442-507 | one request. Device, context and swap chain exist together on success, and are all null with a report on failure |
| D3DInterface.D3D.CreateRenderTarget | DigiPen_Graphics_Library/src/D3dInterface.cpp:510-537 | the back buffer, then the view. Each failure is reported with its message. On success the back buffer is released and the view is kept |
| D3DInterface.D3D.CreateRasterizerState | DigiPen_Graphics_Library/src/D3dInterface.cpp:623-649 | on success the state is bound and then released; on failure reported, nothing bound |
| D3DInterface.D3D.CreateBlendSlot | DigiPen_Graphics_Library/src/D3dInterface.cpp:652-740 | one blend state stored under its slot, null on failure, which is reported |
| D3DInterface.D3D.CreateBlendPair | DigiPen_Graphics_Library/src/D3dInterface.cpp:652-740 | two blend states in order; the second is not attempted after a failure |
| D3DInterface.D3D.CreateBlendStates | DigiPen_Graphics_Library/src/D3dInterface.cpp:652-740 | none, transparent, add, multiply, in order, stopping at a failure. On success all exist and "none" is bound |
| D3DInterface.D3D.CreateConstantBuffer | DigiPen_Graphics_Library/src/D3dInterface.cpp:743-759 | the constant buffer is made, or is null with a report |
| D3DInterface.D3D.CreateSampler | DigiPen_Graphics_Library/src/D3dInterface.cpp:786-897 | one sampler stored under its key, null on failure, which is reported |
| D3DInterface.D3D.CreateFilterSamplers | DigiPen_Graphics_Library/src/D3dInterface.cpp:786-897 | the four samplers of one filter in order; on success all exist; the other filter is untouched |
| D3DInterface.D3D.CreateSamplers | DigiPen_Graphics_Library/src/D3dInterface.cpp:786-897 | the eight samplers, point first, stopping at a failure; on success every sampler exists |
| D3DInterface.D3D.CreateDepthState | DigiPen_Graphics_Library/src/D3dInterface.cpp:540-620 | the depth-stencil state is bound and then released on success; reported on failure |
| D3DInterface.D3D.CreateDepthStateAndView | DigiPen_Graphics_Library/src/D3dInterface.cpp:540-620 | the state, then the depth view, which is not attempted after a failure |
| D3DInterface.D3D.CreateDepthStencil | DigiPen_Graphics_Library/src/D3dInterface.cpp:540-620 | depth buffer, state and view in order, each failure with its own message; on success buffer and view exist |
| D3DInterface.D3D.InitDeviceAndTarget | DigiPen_Graphics_Library/src/D3dInterface.cpp:343-347 | steps one and two of the initialization, stopping at the first failure |
| D3DInterface.D3D.InitStates | DigiPen_Graphics_Library/src/D3dInterface.cpp:349-353 | steps three and four, stopping at the first failure |
| D3DInterface.D3D.InitResources | DigiPen_Graphics_Library/src/D3dInterface.cpp:355-359 | steps five and six, stopping at the first failure |
| D3DInterface.D3D.InitFirstHalf | DigiPen_Graphics_Library/src/D3dInterface.cpp:343-353 | steps one to four: on success the pipeline objects exist |
| D3DInterface.D3D.InitSecondHalf | DigiPen_Graphics_Library/src/D3dInterface.cpp:355-362 | steps five to seven: on success the resources exist, and the pipeline objects are untouched |
| D3DInterface.D3D.InitializeD3D | DigiPen_Graphics_Library/src/D3dInterface.cpp:341-369 | the twenty requests run in order and stop at the first failure, which returns 1 with that step's message and code. No viewport call is issued and the world matrix is kept on failure. The ledger only grows. Success returns 0 with every object made, the viewport set and the world matrix taken |
| D3DInterface.D3D.CreateVertexAndColorShaders | DigiPen_Graphics_Library/src/D3dInterface.cpp:374-398 | the default vertex shader, then the colour pixel shader; a failed one is null and reported |
| D3DInterface.D3D.CreateTextureShaderAndLayout | DigiPen_Graphics_Library/src/D3dInterface.cpp:400-431 | the texture pixel shader, then the input layout; a failed one is null and reported |
| D3DInterface.D3D.BindDefaultShaders | DigiPen_Graphics_Library/src/D3dInterface.cpp:433-436 | binds the vertex shader, the texture pixel shader and the linear wrapping sampler, whose key is inserted when absent |
| D3DInterface.D3D.InitializeShaders | DigiPen_Graphics_Library/src/D3dInterface.cpp:372-439 | four requests in order, stopping at the first failure with 1, its message, and that object null. On success all four exist and are bound with the default sampler |
| D3DInterface.D3D.ReleaseBlendStates | DigiPen_Graphics_Library/src/D3dInterface.cpp:307-309 | the loop releases every blend entry that holds an object; the table keeps its entries |
| D3DInterface.D3D.ReleaseSamplerStates | DigiPen_Graphics_Library/src/D3dInterface.cpp:311-316 | the loop releases every sampler entry that holds an object; the table keeps its entries |
| D3DInterface.D3D.ReleaseShaderObjects | DigiPen_Graphics_Library/src/D3dInterface.cpp:319-323 | the buffer, layout and three shaders are released when present, in order, and cleared |
| D3DInterface.D3D.ReleaseTargetsAndDevice | DigiPen_Graphics_Library/src/D3dInterface.cpp:324-329 | the depth view, depth buffer, target, swap chain, context and device are released when present, in order, and cleared |
| D3DInterface.D3D.ReleaseTables | DigiPen_Graphics_Library/src/D3dInterface.cpp:307-316 | blend entries, then sampler entries |
| D3DInterface.D3D.ReleaseMembers | DigiPen_Graphics_Library/src/D3dInterface.cpp:319-329 | every member pointer is released when present and cleared |
| D3DInterface.D3D.Release | DigiPen_Graphics_Library/src/D3dInterface.cpp:300-338 | the ledger grows by the table ids, then the member ids in release order; every member is null and the invariant holds |
| D3DInterface.D3D.ReleaseTargetAndResize | DigiPen_Graphics_Library/src/D3dInterface.cpp:276-289 | unbind the targets, release the view, request the resize; a failure is reported |
| D3DInterface.D3D.ResetOnSizeChange | DigiPen_Graphics_Library/src/D3dInterface.cpp:268-297 | no context: nothing happens. A failed resize is reported after the view was released, and the member still holds that released view. After a successful resize a new target is attempted, and the viewport and world matrix are set whatever its outcome. A failed back buffer is reported and the member still holds the released view. A failed view is reported, leaks the back buffer, and leaves the member null. A new view replaces the member, and the back buffer is released |
| Graphics.GraphicsSystem.constructor | DigiPen_Graphics_Library/src/GraphicsSystem.cpp:21-24 | a new system is not initialized, counts no textures or meshes, has no current texture, and its interface holds no objects |
| Graphics.GraphicsSystem.Abandon | DigiPen_Graphics_Library/src/GraphicsSystem.cpp:42-44 | the interface is released and 1 is returned: the ledger grows by the table entries, then by `held`, the ids the members held |
| Graphics.GraphicsSystem.InitializeInterface | DigiPen_Graphics_Library/src/GraphicsSystem.cpp:39-45 | the interface's initialization. The ledger grows by what that step released. On failure it then grows by the table entries and by the ids the members held, every member is null and 1 is returned |
| Graphics.GraphicsSystem.InitializeShadersOrAbandon | DigiPen_Graphics_Library/src/GraphicsSystem.cpp:47-53 | the default shaders, which release nothing. On failure the ledger grows by the table entries and by the ids the members held, every member is null and 1 is returned |
| Graphics.GraphicsSystem.Initialize | DigiPen_Graphics_Library/src/GraphicsSystem.cpp:35-61 | the interface plan then the shader plan, stopping at the first failure. A failure returns 1, leaves the flag and releases the tables and every member: the ledger grows by the interface step's own releases, the table entries and the ids the members held. Success returns 0, sets the flag, and every object exists |
| Graphics.GraphicsSystem.ShutDown | DigiPen_Graphics_Library/src/GraphicsSystem.cpp:64-87 | uninitialized: 0, nothing changes. Otherwise 1 exactly when meshes or textures are still counted, with the leak message. The interface is released and the flag cleared |
| Graphics.GraphicsSystem.LoadTexture | DigiPen_Graphics_Library/src/GraphicsSystem.cpp:90-101 | a texture is returned exactly when a device exists and the load succeeds, and only then counted |
| Graphics.GraphicsSystem.LoadTextureFromMemory | DigiPen_Graphics_Library/src/GraphicsSystem.cpp:104-115 | a returned texture is counted; it needs a device, pixels and a non-zero size |
| Graphics.GraphicsSystem.ReleaseTexture | DigiPen_Graphics_Library/src/GraphicsSystem.cpp:118-129 | null is ignored; otherwise the texture's objects are released and the count drops by one |
| Graphics.GraphicsSystem.SetCurrentTexture | DigiPen_Graphics_Library/src/GraphicsSystem.cpp:132-136 | the next draw uses this texture |
| Graphics.GraphicsSystem.StartMesh | DigiPen_Graphics_Library/src/GraphicsSystem.cpp:139-143 | the accumulator is empty |
| Graphics.GraphicsSystem.AddVertex | DigiPen_Graphics_Library/src/GraphicsSystem.cpp:174-178 | the vertex is appended to the accumulator |
| Graphics.GraphicsSystem.EndMesh | DigiPen_Graphics_Library/src/GraphicsSystem.cpp:146-157 | a mesh is returned exactly when a device exists, vertices were added and the buffer succeeds, and only then counted |
| Graphics.GraphicsSystem.EndMeshIndexed | DigiPen_Graphics_Library/src/GraphicsSystem.cpp:160-171 | a returned indexed mesh is counted, holds the given indices, and needs a device, indices and vertices |
| Graphics.GraphicsSystem.ReleaseMesh | DigiPen_Graphics_Library/src/GraphicsSystem.cpp:181-192 | null is ignored; otherwise the mesh's buffers are released and the count drops by one |
| Graphics.GraphicsSystem.DrawMesh | DigiPen_Graphics_Library/src/GraphicsSystem.cpp:195-199 | the mesh is drawn with the current texture and the shaders of the current modes; without a context even a null mesh is only reported |
| Graphics.FreeTexture | DigiPen_Graphics_Library/src/GraphicsSystem.cpp:293-297 | the texture is released and uncounted, and the caller's pointer becomes null |
| Graphics.FreeMesh | DigiPen_Graphics_Library/src/GraphicsSystem.cpp:336-340 | the mesh is released and uncounted, and the caller's pointer becomes null |
| Graphics.AddTriangle | DigiPen_Graphics_Library/src/GraphicsSystem.cpp:324-333 | the three vertices are appended in order |
| Graphics.SetBackgroundColor | DigiPen_Graphics_Library/src/GraphicsSystem.cpp:249-254 | red, green and blue are replaced; alpha keeps its value |

## Left out

- Graphics.GraphicsSystem.Initialize, Graphics.GraphicsSystem.InitializeInterface, Graphics.GraphicsSystem.InitializeShadersOrAbandon: do not restate the message a failure leaves in the error slot. `D3DInterface.D3D.InitializeD3D` and `D3DInterface.D3D.InitializeShaders` state it, and `Abandon` does not touch the slot. Their ghost result `held` is the ids the members held when the failing step stopped. `Graphics.GraphicsSystem.Abandon` states that equality. These three cannot name that intermediate state in a postcondition, so they state only that the ledger grows by `held` after the table entries.
- Graphics.GraphicsSystem.LoadTextureFromMemory, Graphics.GraphicsSystem.EndMeshIndexed: state only what a returned object needs. `Textures.LoadTextureFromMemory` and `Meshes.MeshManager.CreateMeshIndexed` state every path.
- The global instance pointers that the constructors set (`gGraphics`, `gError`, `gInput`) are not modelled. The objects are passed explicitly instead.
- The `GraphicsSystem` destructor only calls `ShutDown` when initialized. Destruction is not modelled; `Graphics.GraphicsSystem.ShutDown` is.
- Console output (`printf`, the debug echo of the error slot) is not modelled.
- The text of a compiler diagnostic is not modelled.
- Shaders.ShaderManager.LoadPixelShader: whether a failed compilation hands out a diagnostics buffer is up to the compiler, which is not part of this model. The model assumes there is one unless the code is `HRESULT_FROM_WIN32(ERROR_FILE_NOT_FOUND)` or `HRESULT_FROM_WIN32(ERROR_PATH_NOT_FOUND)` (`Backend.HasDiagnostics`). The release of the buffer only when present is the program's own.
- The camera is not part of this model. Its world matrix is a parameter. Its "reset window size" request is the `resetWindow` result of the message handler.
- COM initialization and uninitialization are not modelled.
- `new`/`delete` of the library's own structs, and the copies of vertices and indices, are values, not heap memory.
- `WM_MOVE` only invalidates the window so that it is redrawn. The handler accepts the message and changes no modelled state.
- The mouse position and its delta come from the cursor and are not modelled. `GetMousePosition` and `GetMousePositionDelta` are left out.
- The key count comes from a header that is not part of this model. It is a constructor parameter, so a count below 256 makes the range guard reachable.
- Input.InputSystem.constructor: the initial all-up key tables and the zero wheel delta would come from `InputSystem.h`, which is not part of this model. They are assumed, not taken from the cited constructor, which only sets the global instance pointer.
- The viewport size, the swap-chain format, the buffer descriptions and the shader bytecode are not modelled. Each request carries only what it depends on in the model.
- The debug-layer device and the live-object report, compiled only in debug builds, are not modelled.
- D3DInterface.D3D.ReleaseBlendStates, D3DInterface.D3D.ReleaseSamplerStates: release the table entries in one fixed key order. The source iterates hash maps whose order is unspecified, so only which ids are released, not their order among the table entries, is the program's. The same holds for the table part of `D3DInterface.D3D.Release`.
- The pixel and vertex shader mode enumerations are declared in a header that is not part of this model. Their values are taken in declaration order, colour 0, texture 1, custom 2 and default 0, custom 1. The interface's initial modes, colour and default, are taken the same way.
- The sampler table nests one map per filter. The model uses one map keyed by (filter, addressing). The set of existing entries and their values are the same.
- The shader set's ordering is declared in a header that is not part of this model. The set is modelled as a map keyed by file name.
- `GraphicsSystem::DrawMesh` calls an older five-argument `MeshManager::Draw` with a single current shader, while `Mesh.cpp` defines the six-argument version. The model follows `Mesh.cpp`, passing the current vertex and pixel shaders.
- `DGL_Graphics_SetShaderMode` calls a `SetShaderMode` that `D3dInterface.cpp` does not define. It is left out; the two mode setters that exist are modelled.
- `MeshManager::Draw` takes the context as a parameter. Its one caller passes the interface's context, so the model reads it from the interface.
- The `DGL_Graphics_SetCB_*` setters are not modelled. They call `SetTransform`, `SetTextureOffset`, `SetAlpha` and `SetTintColor` on the interface. Only the older `D3dInterface.h` declares these, and `D3dInterface.cpp` does not define them. `DGL_Graphics_SetCB_TransformData` also builds the transform by floating-point matrix arithmetic.
- The frame start/finish, sampler, blend, texture and mesh wrappers and the other one-line C wrappers forward to modelled members and are not modelled separately.
- Creations that fail leave their out-pointer null, as Direct3D documents. A failed creation never hands out an object.
- Calling `Release()` through a null pointer is undefined in C++. `Backend.Ledger.Release` requires a non-null pointer, and `ResetOnSizeChange` requires a render target view whenever a context exists. For the same reason `Meshes.DrawMesh` and `Graphics.GraphicsSystem.DrawMesh` require `d3d.context.Obj? ==> m != null`: with a context the source dereferences the mesh (Mesh.cpp:156-214), so only the null mesh without a context, which is reported, is modelled.
- 32-bit wrap-around is modelled where a value is converted to `unsigned`: the vertex count and the row pitch. Counters of textures and meshes are unbounded integers.

=== FILE: backend.dfy ===
/**
 * What the library can observe of the GPU backend it drives (the Direct3D 11
 * device, its immediate context and swap chain, the texture loader and the
 * shader compiler).
 *
 * - Every creation or other fallible request goes to a `Factory`, which logs
 *   it and answers with the status code the backend returns. The codes come
 *   from a fixed tape given up front (one code per request, in order; past
 *   its end every request succeeds), so a run of the library is determined
 *   by the tape. A successful creation yields a handle with a fresh id.
 * - Every `Release()` on an interface pointer is recorded in a `Ledger`, by
 *   the object's id and in order, so releasing an object twice shows.
 * - Every call made on the immediate context or the swap chain is appended
 *   to a `CallLog`.
 */
module Backend {
  import opened Dgl
  import Errors

  /** HRESULT convention: a status code is a failure when it is negative. */
  predicate Failed(hr: int) { hr < 0 }
  const S_OK: int := 0

  /**
   * `HRESULT_FROM_WIN32(ERROR_FILE_NOT_FOUND)` and
   * `HRESULT_FROM_WIN32(ERROR_PATH_NOT_FOUND)` as signed 32-bit values: the
   * compiler could not open the source file.
   */
  const FileNotFound: int := -0x7FF8_FFFE
  const PathNotFound: int := -0x7FF8_FFFD

  /**
   * A failed compilation hands out a diagnostics buffer unless the compiler
   * never read the source, which the two codes above say.
   */
  predicate HasDiagnostics(hr: int) { Failed(hr) && hr != FileNotFound && hr != PathNotFound }

  /** The requests the library makes of the backend, with what they depend on. */
  datatype Request =
    | DeviceAndSwapChain
    | FrameBuffer
    | RenderTargetView
    | RasterizerState
    | BlendState(slot: BlendSlot)
    | ConstantBuffer
    | SamplerState(filter: SampleMode, address: AddressMode)
    | DepthStencilBuffer
    | DepthStencilState
    | DepthStencilView
    | ResizeBuffers
    | DefaultVertexShader
    | DefaultColorShader
    | DefaultTextureShader
    | InputLayout
    | VertexBuffer(vertices: seq<Vertex>)
    | IndexBuffer(indices: seq<nat>)
    | TextureFromFile(wideName: seq<WChar>)
    | Texture2D(width: nat, height: nat, rowPitch: nat, pixels: seq<Byte>)
    | TextureView(texture: Ptr)
    | CompileShader(wideName: seq<WChar>, profile: string)
    | PixelShaderObject(bytecode: Ptr)

  /** The calls made on the immediate context and the swap chain. */
  datatype Call =
    | ClearRenderTarget(view: Ptr, color: seq<real>)
    | ClearDepthStencil(view: Ptr)
    | SetInputLayout(layout: Ptr)
    | SetRenderTargets(view: Ptr, depth: Ptr)
    | UnbindRenderTargets
    | Present
    | SetBlendState(state: Ptr)
    /** `None` stands for a null array of samplers. */
    | SetSamplers(sampler: Option<Ptr>)
    | SetRasterizerState(state: Ptr)
    | SetDepthStencilState(state: Ptr)
    | SetViewport
    | UpdateConstants(buffer: Ptr, data: PerObject)
    | SetConstantBuffer(buffer: Ptr)
    | SetVertexShader(shader: Ptr)
    | SetPixelShader(shader: Ptr)
    | SetShaderResource(view: Ptr)
    | SetTopology(topology: Topology)
    | SetVertexBuffer(buffer: Ptr)
    | SetIndexBuffer(buffer: Ptr)
    | Draw(vertexCount: nat)
    | DrawIndexed(indexCount: nat)

  // The texts the library puts in the error slot, before the status code, when a request fails.
  const ErrDevice: string := "Problem creating D3D device. "
  const ErrFrameBuffer: string := "Problem creating frame buffer. "
  const ErrRenderTarget: string := "Problem creating render target. "
  const ErrRasterizer: string := "Problem creating rasterizer state. "
  const ErrBlendState: string := "Problem creating blend state. "
  const ErrConstantBuffer: string := "Problem creating constant buffer. "
  const ErrSampler: string := "Problem creating sampler. "
  const ErrDepthBuffer: string := "Problem creating depth-stencil buffer. "
  const ErrDepthState: string := "Problem creating depth-stencil state. "
  const ErrDepthView: string := "Problem creating depth-stencil view. "
  const ErrResize: string := "Problem resizing swap chain buffer. "
  const ErrVertexShader: string := "Problem creating default vertex shader. "
  const ErrColorShader: string := "Problem creating default pixel color shader. "
  const ErrTextureShader: string := "Problem creating default pixel texture shader. "
  const ErrInputLayout: string := "Problem creating shader input layout. "
  const ErrVertexBuffer: string := "Problem creating vertex buffer for mesh. "
  const ErrIndexBuffer: string := "Problem creating index buffer for mesh. "
  const ErrTextureMemory: string := "Problem creating texture from memory: error "
  const ErrTextureView: string := "Problem creating shader resource for texture from memory: error "

  /** The status code the backend returns to request number `j` of a run. */
  function OutcomeAt(tape: seq<int>, j: nat): int
  {
    if j < |tape| then tape[j] else S_OK
  }

  /** `after` is `before` followed by the first `n` requests of `plan`. */
  ghost predicate Extends(before: seq<Request>, after: seq<Request>, plan: seq<Request>, n: nat)
  {
    n <= |plan| && |after| == |before| + n && after[..|before|] == before &&
    forall k :: 0 <= k < n ==> after[|before| + k] == plan[k]
  }

  /** The requests numbered `from` up to, not including, `to` all succeeded. */
  ghost predicate Succeeded(tape: seq<int>, from: int, to: int)
  {
    forall j: nat :: from <= j < to ==> !Failed(OutcomeAt(tape, j))
  }

  /** The last request made after `before` failed. */
  predicate Stopped(tape: seq<int>, before: seq<Request>, after: seq<Request>)
  {
    |after| > |before| && Failed(OutcomeAt(tape, |after| - 1))
  }

  /** The first `i` requests of `plan` were made after `before`, and all succeeded. */
  ghost predicate Progress(tape: seq<int>, before: seq<Request>, now: seq<Request>, plan: seq<Request>, i: nat)
  {
    Extends(before, now, plan, i) && Succeeded(tape, |before|, |now|)
  }

  /**
   * Running `plan` from the request log `before` led to the log `after`: the
   * plan's requests were made in order, each one only when all before it
   * succeeded, so the run stops early exactly at a failure.
   */
  ghost predicate Ran(tape: seq<int>, before: seq<Request>, after: seq<Request>, plan: seq<Request>)
  {
    |before| <= |after| && Extends(before, after, plan, |after| - |before|) &&
    Succeeded(tape, |before|, |after| - 1) &&
    (|after| - |before| < |plan| ==> Stopped(tape, before, after))
  }

  /**
   * The last request of the log failed, and the error slot holds `text`
   * followed by the failure's status code in decimal.
   */
  predicate Reported(lastError: string, tape: seq<int>, log: seq<Request>, text: string)
  {
    |log| > 0 && Failed(OutcomeAt(tape, |log| - 1)) &&
    lastError == text + Errors.DecimalString(OutcomeAt(tape, |log| - 1))
  }

  /** Nothing of a plan has run yet. */
  lemma RanStart(tape: seq<int>, a: seq<Request>, plan: seq<Request>)
    ensures Progress(tape, a, a, plan, 0)
  {
  }

  /**
   * One more request of a plan: when it fails the plan's run is over,
   * otherwise one more request of the plan has been made successfully.
   */
  lemma Step(tape: seq<int>, a: seq<Request>, b: seq<Request>, c: seq<Request>, plan: seq<Request>, i: nat)
    requires i < |plan| && Progress(tape, a, b, plan, i) && c == b + [plan[i]]
    ensures Failed(OutcomeAt(tape, |b|)) ==> Ran(tape, a, c, plan) && Stopped(tape, a, c)
    ensures !Failed(OutcomeAt(tape, |b|)) ==> Progress(tape, a, c, plan, i + 1)
  {
    assert c[..|a|] == b[..|a|];
  }

  /** Every request of the plan was made, and all succeeded. */
  lemma Done(tape: seq<int>, a: seq<Request>, b: seq<Request>, plan: seq<Request>)
    requires Progress(tape, a, b, plan, |plan|)
    ensures Ran(tape, a, b, plan) && !Stopped(tape, a, b)
  {
  }

  /** A plan of one request. */
  lemma RanOne(tape: seq<int>, a: seq<Request>, r: Request)
    ensures Ran(tape, a, a + [r], [r])
    ensures Stopped(tape, a, a + [r]) == Failed(OutcomeAt(tape, |a|))
  {
    assert (a + [r])[..|a|] == a;
  }

  /** A run that stopped at a failure is also a stopped run of every longer plan it begins. */
  lemma StoppedIn(tape: seq<int>, a: seq<Request>, b: seq<Request>, p: seq<Request>, q: seq<Request>)
    requires Ran(tape, a, b, p) && Stopped(tape, a, b)
    ensures Ran(tape, a, b, p + q) && Stopped(tape, a, b)
  {
  }

  /**
   * A complete, successful run of `p` followed by a run of `q` is a run of
   * `p + q`, and it stopped exactly when the run of `q` stopped.
   */
  lemma {:induction false} RanSequence(tape: seq<int>, a: seq<Request>, b: seq<Request>, c: seq<Request>,
                                       p: seq<Request>, q: seq<Request>)
    requires Ran(tape, a, b, p) && !Stopped(tape, a, b) && Ran(tape, b, c, q)
    ensures Ran(tape, a, c, p + q)
    ensures Stopped(tape, a, c) == Stopped(tape, b, c)
  {
    assert |b| - |a| == |p|;
    assert c[..|a|] == c[..|b|][..|a|];
    forall k | 0 <= k < |c| - |a|
      ensures c[|a| + k] == (p + q)[k]
    {
      if k >= |p| {
        assert c[|b| + (k - |p|)] == q[k - |p|];
      } else {
        assert c[|a| + k] == c[..|b|][|a| + k];
      }
    }
  }

  /**
   * Request `i` of `plan`, made after the plan's earlier requests all
   * succeeded. When it fails, the error slot gets the request's report
   * followed by the status code, and the run of the plan is over.
   */
  method Attempt(factory: Factory, err: Errors.ErrorHandler, ghost a: seq<Request>, plan: seq<Request>, i: nat,
                 text: string)
    returns (hr: int, p: Ptr)
    requires i < |plan| && Progress(factory.tape, a, factory.requests, plan, i)
    modifies factory, err
    ensures hr == old(factory.Next()) && factory.requests == old(factory.requests) + [plan[i]]
    ensures p == (if Failed(hr) then Null else Obj(old(factory.nextId)))
    ensures factory.nextId == old(factory.nextId) + (if Failed(hr) then 0 else 1)
    ensures Failed(hr) ==> Ran(factory.tape, a, factory.requests, plan) && Stopped(factory.tape, a, factory.requests) &&
                           Reported(err.lastError, factory.tape, factory.requests, text)
    ensures !Failed(hr) ==> Progress(factory.tape, a, factory.requests, plan, i + 1) && err.lastError == old(err.lastError)
  {
    hr, p := factory.Create(plan[i]);
    Step(factory.tape, a, old(factory.requests), factory.requests, plan, i);
    if Failed(hr) {
      err.SetErrorCode(text, hr);
    }
  }

  /** The source of creation outcomes and fresh handles. */
  class Factory {
    /** The status codes of the run's requests, in order. */
    const tape: seq<int>
    /** Every request made so far, in order. */
    var requests: seq<Request>
    /** Ids below this one have been handed out. */
    var nextId: nat

    constructor (tape: seq<int>)
      ensures this.tape == tape && requests == [] && nextId == 0
    {
      this.tape := tape;
      requests := [];
      nextId := 0;
    }

    /** The code the next request will get. */
    function Next(): int
      reads this
    {
      OutcomeAt(tape, |requests|)
    }

    /** A creation request: a fresh handle on success, null on failure. */
    method Create(r: Request) returns (hr: int, p: Ptr)
      modifies this
      ensures hr == old(Next()) && requests == old(requests) + [r]
      ensures p == (if Failed(hr) then Null else Obj(old(nextId)))
      ensures nextId == old(nextId) + (if Failed(hr) then 0 else 1)
    {
      hr := Next();
      requests := requests + [r];
      if Failed(hr) {
        p := Null;
      } else {
        p := Obj(nextId);
        nextId := nextId + 1;
      }
    }

    /** A fallible request that creates nothing. */
    method Invoke(r: Request) returns (hr: int)
      modifies this
      ensures hr == old(Next()) && requests == old(requests) + [r]
      ensures nextId == old(nextId)
    {
      hr := Next();
      requests := requests + [r];
    }

    /** A creation that yields two objects, both or neither. */
    method CreatePair(r: Request) returns (hr: int, p: Ptr, q: Ptr)
      modifies this
      ensures hr == old(Next()) && requests == old(requests) + [r]
      ensures Failed(hr) ==> p == Null && q == Null && nextId == old(nextId)
      ensures !Failed(hr) ==> p == Obj(old(nextId)) && q == Obj(old(nextId) + 1) && nextId == old(nextId) + 2
    {
      hr := Next();
      requests := requests + [r];
      if Failed(hr) {
        p, q := Null, Null;
      } else {
        p, q := Obj(nextId), Obj(nextId + 1);
        nextId := nextId + 2;
      }
    }

    /** Device, context and swap chain come from one request: all three or none. */
    method CreateDevice() returns (hr: int, device: Ptr, context: Ptr, swapChain: Ptr)
      modifies this
      ensures hr == old(Next()) && requests == old(requests) + [DeviceAndSwapChain]
      ensures Failed(hr) ==> device == Null && context == Null && swapChain == Null && nextId == old(nextId)
      ensures !Failed(hr) ==> device == Obj(old(nextId)) && context == Obj(old(nextId) + 1) &&
                              swapChain == Obj(old(nextId) + 2) && nextId == old(nextId) + 3
    {
      hr := Next();
      requests := requests + [DeviceAndSwapChain];
      if Failed(hr) {
        device, context, swapChain := Null, Null, Null;
      } else {
        device, context, swapChain := Obj(nextId), Obj(nextId + 1), Obj(nextId + 2);
        nextId := nextId + 3;
      }
    }

    /**
     * The shader compiler: bytecode on success; on failure no bytecode, and
     * a buffer holding the diagnostics when the code says there are some.
     */
    method Compile(r: Request) returns (hr: int, bytecode: Ptr, diagnostics: Ptr)
      modifies this
      ensures hr == old(Next()) && requests == old(requests) + [r]
      ensures !Failed(hr) ==> bytecode == Obj(old(nextId)) && diagnostics == Null && nextId == old(nextId) + 1
      ensures HasDiagnostics(hr) ==> bytecode == Null && diagnostics == Obj(old(nextId)) && nextId == old(nextId) + 1
      ensures Failed(hr) && !HasDiagnostics(hr) ==> bytecode == Null && diagnostics == Null && nextId == old(nextId)
    {
      hr := Next();
      requests := requests + [r];
      if !Failed(hr) {
        bytecode, diagnostics := Obj(nextId), Null;
        nextId := nextId + 1;
      } else if HasDiagnostics(hr) {
        bytecode, diagnostics := Null, Obj(nextId);
        nextId := nextId + 1;
      } else {
        bytecode, diagnostics := Null, Null;
      }
    }
  }

  /** Every `Release()` made on an interface pointer, by object id. */
  class Ledger {
    var released: seq<nat>

    constructor ()
      ensures released == []
    {
      released := [];
    }

    /** `Release()` through a pointer; calling it through a null pointer is undefined. */
    method Release(p: Ptr)
      requires p.Obj?
      modifies this
      ensures released == old(released) + [p.id]
    {
      released := released + [p.id];
    }
  }

  /** `after` is `before` with more entries appended: a ledger or a log only grows. */
  ghost predicate Grew<T>(before: seq<T>, after: seq<T>)
  {
    |before| <= |after| && after[..|before|] == before
  }

  /** `after` is `before` with more calls appended, none of them `c`. */
  ghost predicate AppendedWithout(before: seq<Call>, after: seq<Call>, c: Call)
  {
    Grew(before, after) && c !in after[|before|..]
  }

  lemma GrewTwice<T>(a: seq<T>, b: seq<T>, c: seq<T>)
    requires Grew(a, b) && Grew(b, c)
    ensures Grew(a, c)
  {
    assert c[..|b|][..|a|] == c[..|a|];
  }

  /** A sequence that grew is the old one followed by what was appended. */
  lemma GrewSplit<T>(a: seq<T>, b: seq<T>)
    requires Grew(a, b)
    ensures b == a + b[|a|..]
  {
  }

  /** Two stretches of a log that both avoid a call make one that avoids it. */
  lemma AppendedWithoutTwice(a: seq<Call>, b: seq<Call>, c: seq<Call>, x: Call)
    requires AppendedWithout(a, b, x) && AppendedWithout(b, c, x)
    ensures AppendedWithout(a, c, x)
  {
    GrewTwice(a, b, c);
    assert c[|a|..] == b[|a|..] + c[|b|..];
  }

  /** The ids a pointer contributes to a release: none when it is null. */
  function IdOf(p: Ptr): seq<nat>
  {
    if p.Obj? then [p.id] else []
  }

  /** The calls made on the immediate context and the swap chain, in order. */
  class CallLog {
    var calls: seq<Call>

    constructor ()
      ensures calls == []
    {
      calls := [];
    }

    method Issue(c: Call)
      modifies this
      ensures calls == old(calls) + [c]
    {
      calls := calls + [c];
    }
  }
}

=== FILE: d3d_interface.dfy ===
/**
 * The Direct3D wrapper: the device objects it owns, the blend and sampler
 * tables, the shader modes, the frame bracket (start / present), the
 * initialization sequence and its teardown.
 */
module D3DInterface {
  import opened Dgl
  import opened Backend
  import Errors

  // ---------------------------------------------------------------- error messages

  const ErrStartNotInitialized: string := "Started Graphics update when not initialized."
  const ErrEndNotInitialized: string := "Ended Graphics update when not initialized."
  const ErrEndWithoutStart: string := "Called DGL_Graphics_FinishDrawing without calling DGL_Graphics_StartDrawing."
  const ErrBlendNotInitialized: string := "Tried to set blend mode when Graphics not initialized."
  const ErrInvalidBlendMode: string := "Passed in an invalid DGL_BlendMode value to DGL_Graphics_SetBlendMode."
  const ErrSamplerNotInitialized: string := "Tried to set sampler state when Graphics not initialized."
  const ErrInvalidSampleMode: string := "Passed in an invalid DGL_TextureSampleMode value to DGL_Graphics_SetTextureSamplerData."
  const ErrInvalidAddressMode: string := "Passed in an invalid DGL_TextureAddressMode value to DGL_Graphics_SetTextureSamplerData."
  const ErrInvalidPixelMode: string := "Passed in an invalid DGL_PixelShaderMode value to DGL_Graphics_SetShaderMode."
  const ErrInvalidVertexMode: string := "Passed in an invalid DGL_VertexShaderMode value to DGL_Graphics_SetShaderMode."
  const ErrConstantsNotInitialized: string := "Tried to set constant buffer when Graphics is not initialized."

  // ---------------------------------------------------------------- enumerations

  /** The blend state chosen for a public blend mode; `None` outside the enumeration. */
  function BlendSlotFor(mode: int): Option<BlendSlot>
  {
    if mode == BM_NONE then Some(BlendNone)
    else if mode == BM_ADD then Some(BlendAdd)
    else if mode == BM_BLEND then Some(BlendTransparent)
    else if mode == BM_MULTIPLY then Some(BlendMultiply)
    else None
  }

  /** The public blend mode that selects a blend state. */
  function BlendModeOf(slot: BlendSlot): int
  {
    match slot
    case BlendNone => BM_NONE
    case BlendTransparent => BM_BLEND
    case BlendAdd => BM_ADD
    case BlendMultiply => BM_MULTIPLY
  }

  /** Every blend state is selected by exactly one public mode, and only the four enumerated modes select one. */
  lemma BlendModeRoundTrip(mode: int, slot: BlendSlot)
    ensures BlendSlotFor(BlendModeOf(slot)) == Some(slot)
    ensures BlendSlotFor(mode).Some? <==> BM_NONE <= mode <= BM_MULTIPLY
    ensures BlendSlotFor(mode).Some? ==> BlendModeOf(BlendSlotFor(mode).value) == mode
  {
  }

  /** The sampler filter chosen for a public sample mode. */
  function SampleModeFor(mode: int): Option<SampleMode>
  {
    if mode == TSM_LINEAR then Some(Linear)
    else if mode == TSM_POINT then Some(Point)
    else None
  }

  function SampleModeOf(s: SampleMode): int
  {
    match s
    case Linear => TSM_LINEAR
    case Point => TSM_POINT
  }

  lemma SampleModeRoundTrip(mode: int, s: SampleMode)
    ensures SampleModeFor(SampleModeOf(s)) == Some(s)
    ensures SampleModeFor(mode).Some? <==> TSM_LINEAR <= mode <= TSM_POINT
    ensures SampleModeFor(mode).Some? ==> SampleModeOf(SampleModeFor(mode).value) == mode
  {
  }

  /** The sampler addressing chosen for a public address mode. */
  function AddressModeFor(mode: int): Option<AddressMode>
  {
    if mode == AM_CLAMP then Some(Clamp)
    else if mode == AM_MIRROR then Some(Mirror)
    else if mode == AM_MIRROR_ONCE then Some(MirrorOnce)
    else if mode == AM_WRAP then Some(Wrap)
    else None
  }

  function AddressModeOf(a: AddressMode): int
  {
    match a
    case Wrap => AM_WRAP
    case Mirror => AM_MIRROR
    case Clamp => AM_CLAMP
    case MirrorOnce => AM_MIRROR_ONCE
  }

  lemma AddressModeRoundTrip(mode: int, a: AddressMode)
    ensures AddressModeFor(AddressModeOf(a)) == Some(a)
    ensures AddressModeFor(mode).Some? <==> AM_WRAP <= mode <= AM_MIRROR_ONCE
    ensures AddressModeFor(mode).Some? ==> AddressModeOf(AddressModeFor(mode).value) == mode
  {
  }

  // ---------------------------------------------------------------- the state tables

  type BlendTable = map<BlendSlot, Ptr>
  /**
   * The sampler table, keyed by filter and addressing together. The library
   * nests one map per filter; an entry exists in the nested form exactly
   * when it exists here, which is all its users observe.
   */
  type SamplerTable = map<(SampleMode, AddressMode), Ptr>

  /** The entry for a key, as `operator[]` reads it: null when absent. */
  function BlendAt(m: BlendTable, slot: BlendSlot): Ptr
  {
    if slot in m then m[slot] else Null
  }

  /** `operator[]` on a missing key inserts a null entry. */
  function TouchBlend(m: BlendTable, slot: BlendSlot): (r: BlendTable)
    ensures slot in r && r.Keys == m.Keys + {slot}
    ensures forall s :: BlendAt(r, s) == BlendAt(m, s)
  {
    if slot in m then m else m[slot := Null]
  }

  function SamplerAt(t: SamplerTable, s: SampleMode, a: AddressMode): Ptr
  {
    if (s, a) in t then t[(s, a)] else Null
  }

  /** `mSamplerStates[s][a]` used as an lvalue: the entry exists afterwards, every value is kept. */
  function TouchSampler(t: SamplerTable, s: SampleMode, a: AddressMode): (r: SamplerTable)
    ensures (s, a) in r && r.Keys == t.Keys + {(s, a)}
    ensures forall s2, a2 :: SamplerAt(r, s2, a2) == SamplerAt(t, s2, a2)
  {
    if (s, a) in t then t else t[(s, a) := Null]
  }

  /** Every blend slot holds an object. */
  predicate AllBlends(m: BlendTable)
  {
    BlendAt(m, BlendNone).Obj? && BlendAt(m, BlendTransparent).Obj? &&
    BlendAt(m, BlendAdd).Obj? && BlendAt(m, BlendMultiply).Obj?
  }

  /** Every address mode of filter `s` has its sampler. */
  predicate FilterDone(t: SamplerTable, s: SampleMode)
  {
    SamplerAt(t, s, Wrap).Obj? && SamplerAt(t, s, Clamp).Obj? &&
    SamplerAt(t, s, Mirror).Obj? && SamplerAt(t, s, MirrorOnce).Obj?
  }

  /** Every sampler of the table exists. */
  predicate AllSamplers(t: SamplerTable)
  {
    FilterDone(t, Linear) && FilterDone(t, Point)
  }

  /** The first `k` samplers of filter `s`, in creation order, exist. */
  predicate FilterPrefix(t: SamplerTable, s: SampleMode, k: nat)
  {
    (k >= 1 ==> SamplerAt(t, s, Wrap).Obj?) && (k >= 2 ==> SamplerAt(t, s, Clamp).Obj?) &&
    (k >= 3 ==> SamplerAt(t, s, Mirror).Obj?) && (k >= 4 ==> SamplerAt(t, s, MirrorOnce).Obj?)
  }

  function OtherFilter(s: SampleMode): SampleMode
  {
    if s == Point then Linear else Point
  }

  /**
   * Storing the `k`-th sampler of filter `s` extends that filter's finished
   * prefix by one when the sampler exists, and never touches the other filter.
   */
  lemma StoreSampler(t: SamplerTable, s: SampleMode, k: nat, p: Ptr)
    requires k < 4
    ensures p.Obj? && FilterPrefix(t, s, k) ==> FilterPrefix(t[(s, CreationOrder[k]) := p], s, k + 1)
    ensures FilterDone(t, OtherFilter(s)) ==> FilterDone(t[(s, CreationOrder[k]) := p], OtherFilter(s))
  {
  }

  const AllBlendSlots: seq<BlendSlot> := [BlendNone, BlendTransparent, BlendAdd, BlendMultiply]
  const AllSamplerKeys: seq<(SampleMode, AddressMode)> :=
    [(Linear, Wrap), (Linear, Mirror), (Linear, Clamp), (Linear, MirrorOnce),
     (Point, Wrap), (Point, Mirror), (Point, Clamp), (Point, MirrorOnce)]

  /** The ids held by the entries of `m` under `keys` (each key listed once). */
  function BlendIds(m: BlendTable, keys: seq<BlendSlot>): seq<nat>
  {
    if keys == [] then []
    else BlendIds(m, keys[..|keys| - 1]) + IdOf(BlendAt(m, keys[|keys| - 1]))
  }

  function SamplerIds(t: SamplerTable, keys: seq<(SampleMode, AddressMode)>): seq<nat>
  {
    if keys == [] then []
    else SamplerIds(t, keys[..|keys| - 1]) + IdOf(SamplerAt(t, keys[|keys| - 1].0, keys[|keys| - 1].1))
  }

  /** Every id held by the two state tables. */
  function TableIds(blend: BlendTable, samplers: SamplerTable): seq<nat>
  {
    BlendIds(blend, AllBlendSlots) + SamplerIds(samplers, AllSamplerKeys)
  }

  // ---------------------------------------------------------------- request plans

  const RenderTargetPlan: seq<Request> := [FrameBuffer, RenderTargetView]
  const BlendPlan: seq<Request> :=
    [BlendState(BlendNone), BlendState(BlendTransparent), BlendState(BlendAdd), BlendState(BlendMultiply)]
  /** Where the samplers of a filter start in the sampler plan: point filtering comes first. */
  function FilterStart(s: SampleMode): nat
  {
    if s == Point then 0 else 4
  }

  /** The order in which each filter's samplers are created. */
  const CreationOrder: seq<AddressMode> := [Wrap, Clamp, Mirror, MirrorOnce]

  /** The sampler plan lists each filter's samplers in creation order. */
  lemma FilterOrder(s: SampleMode, k: nat)
    requires k < 4
    ensures FilterStart(s) + k < |SamplerPlan|
    ensures SamplerPlan[FilterStart(s) + k] == SamplerState(s, CreationOrder[k])
  {
  }

  const SamplerPlan: seq<Request> :=
    [SamplerState(Point, Wrap), SamplerState(Point, Clamp), SamplerState(Point, Mirror), SamplerState(Point, MirrorOnce),
     SamplerState(Linear, Wrap), SamplerState(Linear, Clamp), SamplerState(Linear, Mirror), SamplerState(Linear, MirrorOnce)]
  const DepthStencilPlan: seq<Request> := [DepthStencilBuffer, DepthStencilState, DepthStencilView]

  /** The report for a failure at the `n`-th request of the depth-stencil plan. */
  function DepthStencilText(n: int): string
  {
    if n == 1 then ErrDepthBuffer else if n == 2 then ErrDepthState else ErrDepthView
  }

  /** The initialization's steps grouped in pairs, as `InitializeD3D` runs them. */
  const DeviceTargetPlan: seq<Request> := [DeviceAndSwapChain] + RenderTargetPlan
  const StatesPlan: seq<Request> := [RasterizerState] + BlendPlan
  const ResourcesPlan: seq<Request> := [ConstantBuffer] + SamplerPlan
  const FirstHalfPlan: seq<Request> := DeviceTargetPlan + StatesPlan
  const SecondHalfPlan: seq<Request> := ResourcesPlan + DepthStencilPlan

  /** Everything the initialization asks of the backend, in order. */
  const InitPlan: seq<Request> := FirstHalfPlan + SecondHalfPlan

  /** The report for a failure at the `n`-th request (counting from 1) of the initialization plan. */
  function InitText(n: int): string
  {
    if n <= 1 then ErrDevice
    else if n == 2 then ErrFrameBuffer
    else if n == 3 then ErrRenderTarget
    else if n == 4 then ErrRasterizer
    else if n <= 8 then ErrBlendState
    else if n == 9 then ErrConstantBuffer
    else if n <= 17 then ErrSampler
    else if n == 18 then ErrDepthBuffer
    else if n == 19 then ErrDepthState
    else ErrDepthView
  }

  const ShaderPlan: seq<Request> := [DefaultVertexShader, DefaultColorShader, DefaultTextureShader, InputLayout]

  /** The report for a failure at the `n`-th request of the shader plan. */
  function ShaderText(n: int): string
  {
    if n <= 1 then ErrVertexShader
    else if n == 2 then ErrColorShader
    else if n == 3 then ErrTextureShader
    else ErrInputLayout
  }

  /** A step that ran `plan` from `before` to `after` and returned 1 exactly when one of its requests failed. */
  ghost predicate StepDone(tape: seq<int>, before: seq<Request>, after: seq<Request>, plan: seq<Request>, r: int)
  {
    Ran(tape, before, after, plan) && r == (if Stopped(tape, before, after) then 1 else 0)
  }

  /** A step that failed ends every longer sequence of steps it begins. */
  lemma StepStops(tape: seq<int>, a: seq<Request>, b: seq<Request>, p: seq<Request>, q: seq<Request>)
    requires StepDone(tape, a, b, p, 1)
    ensures StepDone(tape, a, b, p + q, 1)
  {
    StoppedIn(tape, a, b, p, q);
  }

  /** A step that succeeded, followed by another, is one step over both plans with the second's result. */
  lemma StepsThen(tape: seq<int>, a: seq<Request>, b: seq<Request>, c: seq<Request>,
                  p: seq<Request>, q: seq<Request>, r: int)
    requires StepDone(tape, a, b, p, 0) && StepDone(tape, b, c, q, r)
    ensures StepDone(tape, a, c, p + q, r)
  {
    RanSequence(tape, a, b, c, p, q);
  }

  // Proof helpers: regroup the ids of releases made one after another, as each release appends its own.

  lemma Group5(s: seq<nat>, a: seq<nat>, b: seq<nat>, c: seq<nat>, d: seq<nat>, e: seq<nat>)
    ensures s + a + b + c + d + e == s + (a + b + c + d + e)
  {
  }

  lemma Group2(s: seq<nat>, a: seq<nat>, b: seq<nat>)
    ensures s + a + b == s + (a + b)
  {
  }

  lemma Group6(s: seq<nat>, a: seq<nat>, b: seq<nat>, c: seq<nat>, d: seq<nat>, e: seq<nat>, f: seq<nat>)
    ensures s + a + b + c + d + e + f == s + (a + b + c + d + e + f)
  {
  }

  /** `SafeRelease`: releases through a non-null pointer, and the pointer becomes null. */
  method SafeRelease(ledger: Ledger, p: Ptr) returns (cleared: Ptr)
    modifies ledger
    ensures cleared == Null
    ensures ledger.released == old(ledger.released) + IdOf(p)
  {
    if p.Obj? {
      ledger.Release(p);
    }
    cleared := Null;
  }

  class D3D {
    const factory: Factory
    const ledger: Ledger
    const log: CallLog
    const err: Errors.ErrorHandler

    /** The colour the render target is cleared to, red, green, blue, alpha. */
    const background: array<real>

    var constants: PerObject
    var device: Ptr
    var context: Ptr
    var swapChain: Ptr
    var renderTargetView: Ptr
    var depthStencil: Ptr
    var depthStencilView: Ptr
    var vertexShader: Ptr
    var pixelShader: Ptr
    var pixelTextureShader: Ptr
    var inputLayout: Ptr
    var perObjectBuffer: Ptr
    var pixelCustomShader: Ptr
    var vertexCustomShader: Ptr
    var pixelMode: int
    var vertexMode: int
    var updateStarted: bool
    var blendStates: BlendTable
    var samplerStates: SamplerTable

    /** Frames started, and frames presented, since construction. */
    ghost var starts: nat
    ghost var presents: nat

    /**
     * The device, its context and the swap chain exist together, and every
     * presented frame was started first: a frame that is still open has not
     * been presented.
     */
    ghost predicate Valid()
      reads this`device, this`context, this`swapChain, this`updateStarted, this`presents, this`starts
    {
      background.Length == 4 &&
      (device.Obj? <==> context.Obj?) && (context.Obj? <==> swapChain.Obj?) &&
      presents + (if updateStarted then 1 else 0) <= starts
    }

    /** The shader modes hold values of their enumerations. */
    ghost predicate ModesInRange()
      reads this
    {
      PSM_COLOR <= pixelMode <= PSM_CUSTOM && VSM_DEFAULT <= vertexMode <= VSM_CUSTOM
    }

    /** The objects of the initialization's first four steps exist. */
    ghost predicate PipelineMade()
      reads this`device, this`context, this`swapChain, this`renderTargetView, this`blendStates
    {
      device.Obj? && context.Obj? && swapChain.Obj? && renderTargetView.Obj? && AllBlends(blendStates)
    }

    /** The objects of the initialization's last three steps exist. */
    ghost predicate ResourcesMade()
      reads this`perObjectBuffer, this`depthStencil, this`depthStencilView, this`samplerStates
    {
      perObjectBuffer.Obj? && depthStencil.Obj? && depthStencilView.Obj? && AllSamplers(samplerStates)
    }

    /** Every object the initialization creates exists. */
    ghost predicate Created()
      reads this`device, this`context, this`swapChain, this`renderTargetView, this`blendStates
      reads this`perObjectBuffer, this`depthStencil, this`depthStencilView, this`samplerStates
    {
      PipelineMade() && ResourcesMade()
    }

    /** The member pointers `Release` clears. */
    ghost predicate MembersNull()
      reads this
    {
      perObjectBuffer == Null && inputLayout == Null && pixelShader == Null && pixelTextureShader == Null &&
      vertexShader == Null && depthStencilView == Null && depthStencil == Null && renderTargetView == Null &&
      swapChain == Null && context == Null && device == Null
    }

    /** The ids held by the constant buffer, the input layout and the default shaders, in release order. */
    function ShaderObjectIds(): seq<nat>
      reads this`perObjectBuffer, this`inputLayout, this`pixelShader, this`pixelTextureShader, this`vertexShader
    {
      IdOf(perObjectBuffer) + IdOf(inputLayout) + IdOf(pixelShader) + IdOf(pixelTextureShader) + IdOf(vertexShader)
    }

    /** The ids held by the targets, the swap chain, the context and the device, in release order. */
    function TargetAndDeviceIds(): seq<nat>
      reads this`depthStencilView, this`depthStencil, this`renderTargetView, this`swapChain, this`context, this`device
    {
      IdOf(depthStencilView) + IdOf(depthStencil) + IdOf(renderTargetView) + IdOf(swapChain) + IdOf(context) + IdOf(device)
    }

    /** The ids held by the member pointers `Release` clears, in release order. */
    function MemberIds(): seq<nat>
      reads this
    {
      ShaderObjectIds() + TargetAndDeviceIds()
    }

    constructor (factory: Factory, ledger: Ledger, log: CallLog, err: Errors.ErrorHandler)
      ensures Valid() && ModesInRange() && MembersNull()
      ensures this.factory == factory && this.ledger == ledger && this.log == log && this.err == err
      ensures fresh(background) && background[..] == [0.0, 0.0, 0.0, 1.0]
      ensures constants == DefaultConstants && !updateStarted && starts == 0 && presents == 0
      ensures pixelCustomShader == Null && vertexCustomShader == Null
      ensures pixelMode == PSM_COLOR && vertexMode == VSM_DEFAULT
      ensures blendStates == map[] && samplerStates == map[]
    {
      this.factory := factory;
      this.ledger := ledger;
      this.log := log;
      this.err := err;
      var bg := new real[4];
      bg[0], bg[1], bg[2], bg[3] := 0.0, 0.0, 0.0, 1.0;
      background := bg;
      constants := DefaultConstants;
      device, context, swapChain, renderTargetView := Null, Null, Null, Null;
      depthStencil, depthStencilView := Null, Null;
      vertexShader, pixelShader, pixelTextureShader, inputLayout := Null, Null, Null, Null;
      perObjectBuffer, pixelCustomShader, vertexCustomShader := Null, Null, Null;
      pixelMode, vertexMode := PSM_COLOR, VSM_DEFAULT;
      updateStarted := false;
      blendStates, samplerStates := map[], map[];
      starts, presents := 0, 0;
    }

    // -------------------------------------------------------------- frame bracket

    /** The calls that open a frame: clear, bind the input layout and the render targets. */
    function FrameStartCalls(): seq<Call>
      reads this, background
    {
      [ClearRenderTarget(renderTargetView, background[..])] +
      (if depthStencilView.Obj? then [ClearDepthStencil(depthStencilView)] else []) +
      [SetInputLayout(inputLayout), SetRenderTargets(renderTargetView, depthStencilView)]
    }

    method StartUpdate()
      requires Valid()
      modifies this`updateStarted, this`starts, log, err
      ensures Valid()
      ensures old(context).Null? ==>
        err.lastError == ErrStartNotInitialized &&
        log.calls == old(log.calls) && updateStarted == old(updateStarted) && starts == old(starts)
      ensures old(context).Obj? ==>
        log.calls == old(log.calls) + FrameStartCalls() && updateStarted && starts == old(starts) + 1 &&
        err.lastError == old(err.lastError)
    {
      if context.Null? {
        err.SetError(ErrStartNotInitialized);
        return;
      }
      log.Issue(ClearRenderTarget(renderTargetView, background[..]));
      if depthStencilView.Obj? {
        log.Issue(ClearDepthStencil(depthStencilView));
      }
      log.Issue(SetInputLayout(inputLayout));
      log.Issue(SetRenderTargets(renderTargetView, depthStencilView));
      updateStarted := true;
      starts := starts + 1;
    }

    /** Presents the frame, once per start; `presents <= starts` is kept by `Valid`. */
    method EndUpdate()
      requires Valid()
      modifies this`updateStarted, this`presents, log, err
      ensures Valid()
      ensures old(swapChain).Null? ==>
        err.lastError == ErrEndNotInitialized &&
        log.calls == old(log.calls) && updateStarted == old(updateStarted) && presents == old(presents)
      ensures old(swapChain).Obj? && !old(updateStarted) ==>
        err.lastError == ErrEndWithoutStart &&
        log.calls == old(log.calls) && !updateStarted && presents == old(presents)
      ensures old(swapChain).Obj? && old(updateStarted) ==>
        log.calls == old(log.calls) + [Present] && !updateStarted && presents == old(presents) + 1 &&
        err.lastError == old(err.lastError)
    {
      if swapChain.Null? {
        err.SetError(ErrEndNotInitialized);
        return;
      } else if !updateStarted {
        err.SetError(ErrEndWithoutStart);
        return;
      }
      log.Issue(Present);
      updateStarted := false;
      presents := presents + 1;
    }

    // -------------------------------------------------------------- render state

    method SetBlendMode(mode: int)
      modifies this`blendStates, log, err
      ensures old(context).Null? ==>
        err.lastError == ErrBlendNotInitialized &&
        log.calls == old(log.calls) && blendStates == old(blendStates)
      ensures old(context).Obj? && BlendSlotFor(mode).Some? ==>
        var slot := BlendSlotFor(mode).value;
        blendStates == TouchBlend(old(blendStates), slot) &&
        log.calls == old(log.calls) + [SetBlendState(BlendAt(old(blendStates), slot))] &&
        err.lastError == old(err.lastError)
      ensures old(context).Obj? && BlendSlotFor(mode).None? ==>
        err.lastError == ErrInvalidBlendMode &&
        log.calls == old(log.calls) + [SetBlendState(Null)] && blendStates == old(blendStates)
    {
      if context.Null? {
        err.SetError(ErrBlendNotInitialized);
        return;
      }
      var blendState := Null;
      var slot := BlendSlotFor(mode);
      if slot.Some? {
        blendStates := TouchBlend(blendStates, slot.value);
        blendState := blendStates[slot.value];
      } else {
        err.SetError(ErrInvalidBlendMode);
      }
      log.Issue(SetBlendState(blendState));
    }

    method SetSamplerState(sampleMode: int, addressMode: int)
      modifies this`samplerStates, log, err
      ensures old(context).Null? ==>
        err.lastError == ErrSamplerNotInitialized &&
        log.calls == old(log.calls) && samplerStates == old(samplerStates)
      ensures old(context).Obj? && SampleModeFor(sampleMode).None? ==>
        err.lastError == ErrInvalidSampleMode &&
        log.calls == old(log.calls) && samplerStates == old(samplerStates)
      ensures old(context).Obj? && SampleModeFor(sampleMode).Some? && AddressModeFor(addressMode).Some? ==>
        var s, a := SampleModeFor(sampleMode).value, AddressModeFor(addressMode).value;
        samplerStates == TouchSampler(old(samplerStates), s, a) &&
        log.calls == old(log.calls) + [SetSamplers(Some(SamplerAt(old(samplerStates), s, a)))] &&
        err.lastError == old(err.lastError)
      ensures old(context).Obj? && SampleModeFor(sampleMode).Some? && AddressModeFor(addressMode).None? ==>
        err.lastError == ErrInvalidAddressMode &&
        log.calls == old(log.calls) + [SetSamplers(None)] && samplerStates == old(samplerStates)
    {
      if context.Null? {
        err.SetError(ErrSamplerNotInitialized);
        return;
      }
      var s := SampleModeFor(sampleMode);
      if s.None? {
        err.SetError(ErrInvalidSampleMode);
        return;
      }
      var samplerState: Option<Ptr> := None;
      var a := AddressModeFor(addressMode);
      if a.Some? {
        samplerStates := TouchSampler(samplerStates, s.value, a.value);
        samplerState := Some(samplerStates[(s.value, a.value)]);
      } else {
        err.SetError(ErrInvalidAddressMode);
      }
      log.Issue(SetSamplers(samplerState));
    }

    // -------------------------------------------------------------- shader selection

    function GetPixelShaderMode(): (m: int)
      reads this
      ensures m == pixelMode
    {
      pixelMode
    }

    method SetPixelShaderMode(mode: int)
      modifies this`pixelMode, err
      ensures PSM_COLOR <= mode <= PSM_CUSTOM ==> pixelMode == mode && err.lastError == old(err.lastError)
      ensures !(PSM_COLOR <= mode <= PSM_CUSTOM) ==>
        pixelMode == old(pixelMode) &&
        err.lastError == ErrInvalidPixelMode
      ensures old(ModesInRange()) ==> ModesInRange()
    {
      if mode < 0 || mode > PSM_CUSTOM {
        err.SetError(ErrInvalidPixelMode);
        return;
      }
      pixelMode := mode;
    }

    function GetVertexShaderMode(): (m: int)
      reads this
      ensures m == vertexMode
    {
      vertexMode
    }

    method SetVertexShaderMode(mode: int)
      modifies this`vertexMode, err
      ensures VSM_DEFAULT <= mode <= VSM_CUSTOM ==> vertexMode == mode && err.lastError == old(err.lastError)
      ensures !(VSM_DEFAULT <= mode <= VSM_CUSTOM) ==>
        vertexMode == old(vertexMode) &&
        err.lastError == ErrInvalidVertexMode
      ensures old(ModesInRange()) ==> ModesInRange()
    {
      if mode < 0 || mode > VSM_CUSTOM {
        err.SetError(ErrInvalidVertexMode);
        return;
      }
      vertexMode := mode;
    }

    /** Installs the GPU object of a loaded pixel shader as the custom one; a null shader clears it. */
    method SetCustomPixelShader(shader: Option<PixelShader>)
      modifies this`pixelCustomShader
      ensures pixelCustomShader == (if shader.Some? then shader.value.shader else Null)
    {
      if shader.Some? {
        pixelCustomShader := shader.value.shader;
      } else {
        pixelCustomShader := Null;
      }
    }

    /** As above for a vertex shader, given by its GPU object. */
    method SetCustomVertexShader(shader: Option<Ptr>)
      modifies this`vertexCustomShader
      ensures vertexCustomShader == (if shader.Some? then shader.value else Null)
    {
      if shader.Some? {
        vertexCustomShader := shader.value;
      } else {
        vertexCustomShader := Null;
      }
    }

    /**
     * The pixel shader a draw uses: the one installed for the current mode,
     * and none for a mode outside the enumeration.
     */
    function GetCurrentPixelShader(): (p: Ptr)
      reads this
      ensures p != Null ==>
        (pixelMode == PSM_TEXTURE && p == pixelTextureShader) ||
        (pixelMode == PSM_COLOR && p == pixelShader) ||
        (pixelMode == PSM_CUSTOM && p == pixelCustomShader)
      ensures p == Null <==>
        !(PSM_COLOR <= pixelMode <= PSM_CUSTOM) ||
        (pixelMode == PSM_TEXTURE && pixelTextureShader == Null) ||
        (pixelMode == PSM_COLOR && pixelShader == Null) ||
        (pixelMode == PSM_CUSTOM && pixelCustomShader == Null)
    {
      var mode := GetPixelShaderMode();
      if mode == PSM_TEXTURE then pixelTextureShader
      else if mode == PSM_COLOR then pixelShader
      else if mode == PSM_CUSTOM then pixelCustomShader
      else Null
    }

    /** The vertex shader a draw uses: the default or the custom one, none for other modes. */
    function GetCurrentVertexShader(): (p: Ptr)
      reads this
      ensures p != Null ==>
        (vertexMode == VSM_DEFAULT && p == vertexShader) || (vertexMode == VSM_CUSTOM && p == vertexCustomShader)
      ensures p == Null <==>
        !(VSM_DEFAULT <= vertexMode <= VSM_CUSTOM) ||
        (vertexMode == VSM_DEFAULT && vertexShader == Null) ||
        (vertexMode == VSM_CUSTOM && vertexCustomShader == Null)
    {
      var mode := GetVertexShaderMode();
      if mode == VSM_DEFAULT then vertexShader
      else if mode == VSM_CUSTOM then vertexCustomShader
      else Null
    }

    /** Uploads the per-object constants and binds the buffer to the vertex stage. */
    method UpdateConstantBuffer()
      modifies log, err
      ensures context.Null? ==>
        err.lastError == ErrConstantsNotInitialized &&
        log.calls == old(log.calls)
      ensures context.Obj? ==>
        log.calls == old(log.calls) + [UpdateConstants(perObjectBuffer, constants), SetConstantBuffer(perObjectBuffer)] &&
        err.lastError == old(err.lastError)
    {
      if context.Null? {
        err.SetError(ErrConstantsNotInitialized);
        return;
      }
      log.Issue(UpdateConstants(perObjectBuffer, constants));
      log.Issue(SetConstantBuffer(perObjectBuffer));
    }

    method SetViewport()
      modifies log
      ensures log.calls == old(log.calls) + (if context.Obj? then [Call.SetViewport] else [])
    {
      if context.Null? {
        return;
      }
      log.Issue(Call.SetViewport);
    }

    // -------------------------------------------------------------- initialization

    method CreateDevice() returns (r: int)
      requires Valid()
      modifies this`device, this`context, this`swapChain, factory, err
      ensures Valid()
      ensures StepDone(factory.tape, old(factory.requests), factory.requests, [DeviceAndSwapChain], r)
      ensures r == 1 ==> Reported(err.lastError, factory.tape, factory.requests, ErrDevice) &&
                         device == Null && context == Null && swapChain == Null
      ensures r == 0 ==> err.lastError == old(err.lastError) && device.Obj? && context.Obj? && swapChain.Obj?
    {
      var hr, dev, ctx, chain := factory.CreateDevice();
      swapChain, device, context := chain, dev, ctx;
      RanOne(factory.tape, old(factory.requests), DeviceAndSwapChain);
      if Failed(hr) || swapChain.Null? || device.Null? || context.Null? {
        err.SetErrorCode(ErrDevice, hr);
        return 1;
      }
      return 0;
    }

    /**
     * Makes the render target view over the swap chain's back buffer. The
     * back buffer is released once the view exists; when the view cannot be
     * made, it is not released.
     */
    method CreateRenderTarget() returns (r: int)
      requires swapChain.Obj? && device.Obj?
      modifies this`renderTargetView, factory, ledger, err
      ensures StepDone(factory.tape, old(factory.requests), factory.requests, RenderTargetPlan, r)
      ensures r == 1 ==> Reported(err.lastError, factory.tape, factory.requests,
                                    if |factory.requests| == |old(factory.requests)| + 1 then ErrFrameBuffer else ErrRenderTarget) &&
                         ledger.released == old(ledger.released)
      ensures r == 1 && |factory.requests| == |old(factory.requests)| + 1 ==> renderTargetView == old(renderTargetView)
      ensures r == 1 && |factory.requests| == |old(factory.requests)| + 2 ==> renderTargetView == Null
      ensures r == 0 ==> err.lastError == old(err.lastError) && renderTargetView == Obj(old(factory.nextId) + 1) &&
                         ledger.released == old(ledger.released) + [old(factory.nextId)]
    {
      RanStart(factory.tape, old(factory.requests), RenderTargetPlan);
      var hr, frameBuffer := Attempt(factory, err, old(factory.requests), RenderTargetPlan, 0, ErrFrameBuffer);
      if Failed(hr) {
        return 1;
      }
      var view;
      hr, view := Attempt(factory, err, old(factory.requests), RenderTargetPlan, 1, ErrRenderTarget);
      renderTargetView := view;
      if Failed(hr) {
        return 1;
      }
      Done(factory.tape, old(factory.requests), factory.requests, RenderTargetPlan);
      ledger.Release(frameBuffer);
      return 0;
    }

    /** Creates the rasterizer state, binds it and drops the library's reference. */
    method CreateRasterizerState() returns (r: int)
      requires device.Obj? && context.Obj?
      modifies factory, ledger, log, err
      ensures StepDone(factory.tape, old(factory.requests), factory.requests, [RasterizerState], r)
      ensures r == 1 ==> Reported(err.lastError, factory.tape, factory.requests, ErrRasterizer) &&
                         log.calls == old(log.calls) && ledger.released == old(ledger.released)
      ensures r == 0 ==> err.lastError == old(err.lastError) &&
                         log.calls == old(log.calls) + [SetRasterizerState(Obj(old(factory.nextId)))] &&
                         ledger.released == old(ledger.released) + [old(factory.nextId)]
    {
      RanStart(factory.tape, old(factory.requests), [RasterizerState]);
      var hr, rasterizer := Attempt(factory, err, old(factory.requests), [RasterizerState], 0, ErrRasterizer);
      if Failed(hr) {
        return 1;
      }
      Done(factory.tape, old(factory.requests), factory.requests, [RasterizerState]);
      log.Issue(SetRasterizerState(rasterizer));
      ledger.Release(rasterizer);
      return 0;
    }

    /** One blend state, stored under its slot (null when the creation fails). */
    method CreateBlendSlot(ghost a: seq<Request>, i: nat, slot: BlendSlot) returns (hr: int)
      requires i < |BlendPlan| && BlendPlan[i] == BlendState(slot)
      requires Progress(factory.tape, a, factory.requests, BlendPlan, i)
      modifies this`blendStates, factory, err
      ensures factory.nextId == old(factory.nextId) + (if Failed(hr) then 0 else 1)
      ensures |factory.requests| == |old(factory.requests)| + 1
      ensures Failed(hr) ==> Ran(factory.tape, a, factory.requests, BlendPlan) &&
                             Stopped(factory.tape, a, factory.requests) &&
                             Reported(err.lastError, factory.tape, factory.requests, ErrBlendState)
      ensures !Failed(hr) ==> Progress(factory.tape, a, factory.requests, BlendPlan, i + 1) &&
                              err.lastError == old(err.lastError)
      ensures blendStates == old(blendStates)[slot := if Failed(hr) then Null else Obj(old(factory.nextId))]
    {
      var p;
      hr, p := Attempt(factory, err, a, BlendPlan, i, ErrBlendState);
      blendStates := blendStates[slot := p];
    }

    /** Two blend states, one after the other; the second is not attempted when the first fails. */
    method CreateBlendPair(ghost a: seq<Request>, i: nat, s1: BlendSlot, s2: BlendSlot) returns (hr: int)
      requires i + 1 < |BlendPlan| && BlendPlan[i] == BlendState(s1) && BlendPlan[i + 1] == BlendState(s2)
      requires Progress(factory.tape, a, factory.requests, BlendPlan, i)
      modifies this`blendStates, factory, err
      ensures Failed(hr) ==> Ran(factory.tape, a, factory.requests, BlendPlan) &&
                             Stopped(factory.tape, a, factory.requests) &&
                             Reported(err.lastError, factory.tape, factory.requests, ErrBlendState)
      ensures !Failed(hr) ==> Progress(factory.tape, a, factory.requests, BlendPlan, i + 2) &&
                              err.lastError == old(err.lastError)
      ensures blendStates ==
        if |factory.requests| == |old(factory.requests)| + 1 then old(blendStates)[s1 := Null]
        else old(blendStates)[s1 := Obj(old(factory.nextId))][s2 := if Failed(hr) then Null else Obj(old(factory.nextId) + 1)]
    {
      hr := CreateBlendSlot(a, i, s1);
      if Failed(hr) {
        return;
      }
      hr := CreateBlendSlot(a, i + 1, s2);
    }

    /** Creates the four blend states in the order none, transparent, add, multiply, then binds "none". */
    method CreateBlendStates() returns (r: int)
      requires device.Obj? && context.Obj?
      modifies this`blendStates, factory, log, err
      ensures StepDone(factory.tape, old(factory.requests), factory.requests, BlendPlan, r)
      ensures r == 1 ==> Reported(err.lastError, factory.tape, factory.requests, ErrBlendState) && log.calls == old(log.calls)
      ensures r == 0 ==> err.lastError == old(err.lastError) && AllBlends(blendStates) &&
                         log.calls == old(log.calls) + [SetBlendState(BlendAt(blendStates, BlendNone))]
    {
      RanStart(factory.tape, old(factory.requests), BlendPlan);
      var hr := CreateBlendPair(old(factory.requests), 0, BlendNone, BlendTransparent);
      if Failed(hr) {
        return 1;
      }
      hr := CreateBlendPair(old(factory.requests), 2, BlendAdd, BlendMultiply);
      if Failed(hr) {
        return 1;
      }
      Done(factory.tape, old(factory.requests), factory.requests, BlendPlan);
      log.Issue(SetBlendState(blendStates[BlendNone]));
      return 0;
    }

    method CreateConstantBuffer() returns (r: int)
      requires device.Obj?
      modifies this`perObjectBuffer, factory, err
      ensures StepDone(factory.tape, old(factory.requests), factory.requests, [ConstantBuffer], r)
      ensures r == 1 ==> Reported(err.lastError, factory.tape, factory.requests, ErrConstantBuffer) && perObjectBuffer == Null
      ensures r == 0 ==> err.lastError == old(err.lastError) && perObjectBuffer == Obj(old(factory.nextId))
    {
      RanStart(factory.tape, old(factory.requests), [ConstantBuffer]);
      var hr, buffer := Attempt(factory, err, old(factory.requests), [ConstantBuffer], 0, ErrConstantBuffer);
      perObjectBuffer := buffer;
      if Failed(hr) {
        return 1;
      }
      Done(factory.tape, old(factory.requests), factory.requests, [ConstantBuffer]);
      return 0;
    }

    /** The `k`-th sampler of filter `s`, stored under its key (null when the creation fails). */
    method CreateSampler(ghost a: seq<Request>, s: SampleMode, k: nat) returns (hr: int)
      requires k < 4 && Progress(factory.tape, a, factory.requests, SamplerPlan, FilterStart(s) + k)
      modifies this`samplerStates, factory, err
      ensures Failed(hr) ==> Ran(factory.tape, a, factory.requests, SamplerPlan) &&
                             Stopped(factory.tape, a, factory.requests) &&
                             Reported(err.lastError, factory.tape, factory.requests, ErrSampler)
      ensures !Failed(hr) ==> Progress(factory.tape, a, factory.requests, SamplerPlan, FilterStart(s) + k + 1) &&
                              err.lastError == old(err.lastError)
      ensures samplerStates ==
        old(samplerStates)[(s, CreationOrder[k]) := if Failed(hr) then Null else Obj(old(factory.nextId))]
      ensures !Failed(hr) && FilterPrefix(old(samplerStates), s, k) ==> FilterPrefix(samplerStates, s, k + 1)
      ensures FilterDone(old(samplerStates), OtherFilter(s)) ==> FilterDone(samplerStates, OtherFilter(s))
    {
      FilterOrder(s, k);
      StoreSampler(samplerStates, s, k, if Failed(factory.Next()) then Null else Obj(factory.nextId));
      var p;
      hr, p := Attempt(factory, err, a, SamplerPlan, FilterStart(s) + k, ErrSampler);
      samplerStates := samplerStates[(s, CreationOrder[k]) := p];
    }

    /**
     * The four samplers of one filter, in the order wrap, clamp, mirror,
     * mirror-once; the other filter's samplers are left as they were.
     */
    method CreateFilterSamplers(ghost a: seq<Request>, s: SampleMode) returns (hr: int)
      requires Progress(factory.tape, a, factory.requests, SamplerPlan, FilterStart(s))
      modifies this`samplerStates, factory, err
      ensures Failed(hr) ==> Ran(factory.tape, a, factory.requests, SamplerPlan) &&
                             Stopped(factory.tape, a, factory.requests) &&
                             Reported(err.lastError, factory.tape, factory.requests, ErrSampler)
      ensures !Failed(hr) ==> Progress(factory.tape, a, factory.requests, SamplerPlan, FilterStart(s) + 4) &&
                              err.lastError == old(err.lastError) && FilterDone(samplerStates, s)
      ensures FilterDone(old(samplerStates), OtherFilter(s)) ==> FilterDone(samplerStates, OtherFilter(s))
    {
      hr := CreateSampler(a, s, 0);
      if Failed(hr) {
        return;
      }
      hr := CreateSampler(a, s, 1);
      if Failed(hr) {
        return;
      }
      hr := CreateSampler(a, s, 2);
      if Failed(hr) {
        return;
      }
      hr := CreateSampler(a, s, 3);
    }

    /** Creates the eight samplers: point filtering first, then linear. */
    method CreateSamplers() returns (r: int)
      requires device.Obj?
      modifies this`samplerStates, factory, err
      ensures StepDone(factory.tape, old(factory.requests), factory.requests, SamplerPlan, r)
      ensures r == 1 ==> Reported(err.lastError, factory.tape, factory.requests, ErrSampler)
      ensures r == 0 ==> err.lastError == old(err.lastError) && AllSamplers(samplerStates)
    {
      RanStart(factory.tape, old(factory.requests), SamplerPlan);
      var hr := CreateFilterSamplers(old(factory.requests), Point);
      if Failed(hr) {
        return 1;
      }
      hr := CreateFilterSamplers(old(factory.requests), Linear);
      if Failed(hr) {
        return 1;
      }
      Done(factory.tape, old(factory.requests), factory.requests, SamplerPlan);
      return 0;
    }

    /** The depth-stencil state: created, bound, then the library's reference dropped. */
    method CreateDepthState(ghost a: seq<Request>) returns (hr: int)
      requires Progress(factory.tape, a, factory.requests, DepthStencilPlan, 1)
      modifies factory, ledger, log, err
      ensures factory.nextId == old(factory.nextId) + (if Failed(hr) then 0 else 1)
      ensures |factory.requests| == |old(factory.requests)| + 1
      ensures Failed(hr) ==> Ran(factory.tape, a, factory.requests, DepthStencilPlan) &&
                             Stopped(factory.tape, a, factory.requests) &&
                             Reported(err.lastError, factory.tape, factory.requests, ErrDepthState) &&
                             log.calls == old(log.calls) && ledger.released == old(ledger.released)
      ensures !Failed(hr) ==> Progress(factory.tape, a, factory.requests, DepthStencilPlan, 2) &&
                              err.lastError == old(err.lastError) &&
                              log.calls == old(log.calls) + [SetDepthStencilState(Obj(old(factory.nextId)))] &&
                              ledger.released == old(ledger.released) + [old(factory.nextId)]
    {
      var dsState;
      hr, dsState := Attempt(factory, err, a, DepthStencilPlan, 1, ErrDepthState);
      if Failed(hr) {
        return;
      }
      log.Issue(SetDepthStencilState(dsState));
      ledger.Release(dsState);
    }

    /** The depth-stencil state, then the depth view; the view is not attempted when the state fails. */
    method CreateDepthStateAndView(ghost a: seq<Request>) returns (hr: int)
      requires Progress(factory.tape, a, factory.requests, DepthStencilPlan, 1)
      modifies this`depthStencilView, factory, ledger, log, err
      ensures Failed(hr) ==> Ran(factory.tape, a, factory.requests, DepthStencilPlan) &&
                             Stopped(factory.tape, a, factory.requests) &&
                             Reported(err.lastError, factory.tape, factory.requests,
                                      if |factory.requests| == |old(factory.requests)| + 1 then ErrDepthState else ErrDepthView)
      ensures !Failed(hr) ==> Progress(factory.tape, a, factory.requests, DepthStencilPlan, 3) &&
                              err.lastError == old(err.lastError) && depthStencilView.Obj?
      ensures |factory.requests| == |old(factory.requests)| + 1 ==>
        log.calls == old(log.calls) && ledger.released == old(ledger.released)
      ensures |factory.requests| != |old(factory.requests)| + 1 ==>
        log.calls == old(log.calls) + [SetDepthStencilState(Obj(old(factory.nextId)))] &&
        ledger.released == old(ledger.released) + [old(factory.nextId)]
    {
      hr := CreateDepthState(a);
      if Failed(hr) {
        return;
      }
      var view;
      hr, view := Attempt(factory, err, a, DepthStencilPlan, 2, ErrDepthView);
      depthStencilView := view;
    }

    /** Depth buffer, depth-stencil state and depth view, in that order. */
    method CreateDepthStencil() returns (r: int)
      requires device.Obj? && context.Obj?
      modifies this`depthStencil, this`depthStencilView, factory, ledger, log, err
      ensures StepDone(factory.tape, old(factory.requests), factory.requests, DepthStencilPlan, r)
      ensures r == 1 ==> Reported(err.lastError, factory.tape, factory.requests,
                                    DepthStencilText(|factory.requests| - |old(factory.requests)|))
      ensures |factory.requests| == |old(factory.requests)| + 3 ==>
        log.calls == old(log.calls) + [SetDepthStencilState(Obj(old(factory.nextId) + 1))] &&
        ledger.released == old(ledger.released) + [old(factory.nextId) + 1]
      ensures |factory.requests| < |old(factory.requests)| + 3 ==>
        log.calls == old(log.calls) && ledger.released == old(ledger.released)
      ensures r == 0 ==> err.lastError == old(err.lastError) && depthStencil.Obj? && depthStencilView.Obj?
    {
      RanStart(factory.tape, old(factory.requests), DepthStencilPlan);
      var hr, buffer := Attempt(factory, err, old(factory.requests), DepthStencilPlan, 0, ErrDepthBuffer);
      depthStencil := buffer;
      if Failed(hr) {
        return 1;
      }
      hr := CreateDepthStateAndView(old(factory.requests));
      if Failed(hr) {
        return 1;
      }
      Done(factory.tape, old(factory.requests), factory.requests, DepthStencilPlan);
      return 0;
    }

    /** `InitializeD3D`, steps one and two: the device, then the render target. */
    method InitDeviceAndTarget() returns (r: int)
      requires Valid()
      modifies this`device, this`context, this`swapChain, this`renderTargetView, factory, ledger, err
      ensures Valid()
      ensures StepDone(factory.tape, old(factory.requests), factory.requests, DeviceTargetPlan, r)
      ensures r == 1 ==> Reported(err.lastError, factory.tape, factory.requests,
                                    InitText(|factory.requests| - |old(factory.requests)|))
      ensures r == 0 ==> err.lastError == old(err.lastError) &&
                         device.Obj? && context.Obj? && swapChain.Obj? && renderTargetView.Obj?
      ensures Grew(old(ledger.released), ledger.released)
    {
      r := CreateDevice();
      if r == 1 {
        StepStops(factory.tape, old(factory.requests), factory.requests, [DeviceAndSwapChain], RenderTargetPlan);
        return;
      }
      label DeviceMade:
      r := CreateRenderTarget();
      StepsThen(factory.tape, old(factory.requests), old@DeviceMade(factory.requests), factory.requests,
                [DeviceAndSwapChain], RenderTargetPlan, r);
    }

    /** `InitializeD3D`, steps three and four: the rasterizer state, then the blend states. */
    method InitStates() returns (r: int)
      requires device.Obj? && context.Obj?
      modifies this`blendStates, factory, ledger, log, err
      ensures StepDone(factory.tape, old(factory.requests), factory.requests, StatesPlan, r)
      ensures r == 1 ==> Reported(err.lastError, factory.tape, factory.requests,
                                    InitText(3 + |factory.requests| - |old(factory.requests)|))
      ensures r == 0 ==> err.lastError == old(err.lastError) && AllBlends(blendStates)
      ensures Grew(old(ledger.released), ledger.released)
      ensures AppendedWithout(old(log.calls), log.calls, Call.SetViewport)
    {
      r := CreateRasterizerState();
      if r == 1 {
        StepStops(factory.tape, old(factory.requests), factory.requests, [RasterizerState], BlendPlan);
        return;
      }
      label RasterizerMade:
      r := CreateBlendStates();
      StepsThen(factory.tape, old(factory.requests), old@RasterizerMade(factory.requests), factory.requests,
                [RasterizerState], BlendPlan, r);
    }

    /** `InitializeD3D`, steps five and six: the constant buffer, then the samplers. */
    method InitResources() returns (r: int)
      requires device.Obj?
      modifies this`perObjectBuffer, this`samplerStates, factory, err
      ensures StepDone(factory.tape, old(factory.requests), factory.requests, ResourcesPlan, r)
      ensures r == 1 ==> Reported(err.lastError, factory.tape, factory.requests,
                                    InitText(8 + |factory.requests| - |old(factory.requests)|))
      ensures r == 0 ==> err.lastError == old(err.lastError) && perObjectBuffer.Obj? && AllSamplers(samplerStates)
    {
      r := CreateConstantBuffer();
      if r == 1 {
        StepStops(factory.tape, old(factory.requests), factory.requests, [ConstantBuffer], SamplerPlan);
        return;
      }
      label BufferMade:
      r := CreateSamplers();
      StepsThen(factory.tape, old(factory.requests), old@BufferMade(factory.requests), factory.requests,
                [ConstantBuffer], SamplerPlan, r);
    }

    /** `InitializeD3D`, steps one to four. */
    method InitFirstHalf() returns (r: int)
      requires Valid()
      modifies this`device, this`context, this`swapChain, this`renderTargetView, this`blendStates,
               factory, ledger, log, err
      ensures Valid()
      ensures StepDone(factory.tape, old(factory.requests), factory.requests, FirstHalfPlan, r)
      ensures r == 1 ==> Reported(err.lastError, factory.tape, factory.requests,
                                    InitText(|factory.requests| - |old(factory.requests)|))
      ensures r == 0 ==> err.lastError == old(err.lastError) && PipelineMade()
      ensures Grew(old(ledger.released), ledger.released)
      ensures AppendedWithout(old(log.calls), log.calls, Call.SetViewport)
    {
      r := InitDeviceAndTarget();
      if r == 1 {
        StepStops(factory.tape, old(factory.requests), factory.requests, DeviceTargetPlan, StatesPlan);
        return;
      }
      label TargetMade:
      r := InitStates();
      StepsThen(factory.tape, old(factory.requests), old@TargetMade(factory.requests), factory.requests,
                DeviceTargetPlan, StatesPlan, r);
      GrewTwice(old(ledger.released), old@TargetMade(ledger.released), ledger.released);
    }

    /** `InitializeD3D`, steps five to seven. */
    method InitSecondHalf() returns (r: int)
      requires device.Obj? && context.Obj?
      modifies this`perObjectBuffer, this`samplerStates, this`depthStencil, this`depthStencilView,
               factory, ledger, log, err
      ensures StepDone(factory.tape, old(factory.requests), factory.requests, SecondHalfPlan, r)
      ensures r == 1 ==> Reported(err.lastError, factory.tape, factory.requests,
                                    InitText(8 + |factory.requests| - |old(factory.requests)|))
      ensures r == 0 ==> err.lastError == old(err.lastError) && ResourcesMade()
      ensures PipelineMade() == old(PipelineMade())
      ensures Grew(old(ledger.released), ledger.released)
      ensures AppendedWithout(old(log.calls), log.calls, Call.SetViewport)
    {
      r := InitResources();
      if r == 1 {
        StepStops(factory.tape, old(factory.requests), factory.requests, ResourcesPlan, DepthStencilPlan);
        return;
      }
      label ResourcesMade:
      r := CreateDepthStencil();
      StepsThen(factory.tape, old(factory.requests), old@ResourcesMade(factory.requests), factory.requests,
                ResourcesPlan, DepthStencilPlan, r);
    }

    /** The end of a successful `InitializeD3D` or resize: the viewport is set and the world matrix taken. */
    method ApplyViewport(world: Mat4)
      requires Valid()
      modifies this`constants, log
      ensures Valid()
      ensures log.calls == old(log.calls) + (if context.Obj? then [Call.SetViewport] else [])
      ensures constants == old(constants).(world := world)
    {
      SetViewport();
      constants := constants.(world := world);
    }

    /**
     * Runs the seven creation steps in order and stops at the first that
     * fails, returning 1; when all succeed it sets the viewport, takes the
     * camera's world matrix (`world`) into the constants and returns 0.
     */
    method InitializeD3D(world: Mat4) returns (r: int)
      requires Valid()
      modifies this`device, this`context, this`swapChain, this`renderTargetView, this`blendStates,
               this`perObjectBuffer, this`samplerStates, this`depthStencil, this`depthStencilView,
               this`constants, factory, ledger, log, err
      ensures Valid()
      ensures StepDone(factory.tape, old(factory.requests), factory.requests, InitPlan, r)
      ensures r == 1 ==> Reported(err.lastError, factory.tape, factory.requests,
                                    InitText(|factory.requests| - |old(factory.requests)|)) &&
                         constants == old(constants) && AppendedWithout(old(log.calls), log.calls, Call.SetViewport)
      ensures Grew(old(ledger.released), ledger.released)
      ensures r == 0 ==> err.lastError == old(err.lastError) && Created() &&
                         constants == old(constants).(world := world) &&
                         |log.calls| > 0 && log.calls[|log.calls| - 1] == Call.SetViewport
    {
      r := InitFirstHalf();
      if r == 1 {
        StepStops(factory.tape, old(factory.requests), factory.requests, FirstHalfPlan, SecondHalfPlan);
        return;
      }
      label FirstHalfDone:
      r := InitSecondHalf();
      StepsThen(factory.tape, old(factory.requests), old@FirstHalfDone(factory.requests), factory.requests,
                FirstHalfPlan, SecondHalfPlan, r);
      GrewTwice(old(ledger.released), old@FirstHalfDone(ledger.released), ledger.released);
      if r == 1 {
        AppendedWithoutTwice(old(log.calls), old@FirstHalfDone(log.calls), log.calls, Call.SetViewport);
        return;
      }
      ApplyViewport(world);
    }

    // -------------------------------------------------------------- default shaders

    /** `InitializeShaders`, steps one and two: the vertex shader, then the color pixel shader. */
    method CreateVertexAndColorShaders(ghost a: seq<Request>) returns (hr: int)
      requires Progress(factory.tape, a, factory.requests, ShaderPlan, 0)
      modifies this`vertexShader, this`pixelShader, factory, err
      ensures Failed(hr) ==> Ran(factory.tape, a, factory.requests, ShaderPlan) &&
                             Stopped(factory.tape, a, factory.requests) &&
                             Reported(err.lastError, factory.tape, factory.requests, ShaderText(|factory.requests| - |a|))
      ensures !Failed(hr) ==> Progress(factory.tape, a, factory.requests, ShaderPlan, 2) &&
                              err.lastError == old(err.lastError) && factory.nextId == old(factory.nextId) + 2 &&
                              |factory.requests| == |old(factory.requests)| + 2
      ensures |factory.requests| <= |old(factory.requests)| + 2
      ensures |factory.requests| == |old(factory.requests)| + 1 ==> vertexShader == Null && pixelShader == old(pixelShader)
      ensures |factory.requests| == |old(factory.requests)| + 2 ==>
        vertexShader == Obj(old(factory.nextId)) && pixelShader == (if Failed(hr) then Null else Obj(old(factory.nextId) + 1))
    {
      var p;
      hr, p := Attempt(factory, err, a, ShaderPlan, 0, ErrVertexShader);
      vertexShader := p;
      if Failed(hr) {
        return;
      }
      hr, p := Attempt(factory, err, a, ShaderPlan, 1, ErrColorShader);
      pixelShader := p;
    }

    /** `InitializeShaders`, steps three and four: the texture pixel shader, then the input layout. */
    method CreateTextureShaderAndLayout(ghost a: seq<Request>) returns (hr: int)
      requires Progress(factory.tape, a, factory.requests, ShaderPlan, 2)
      modifies this`pixelTextureShader, this`inputLayout, factory, err
      ensures Failed(hr) ==> Ran(factory.tape, a, factory.requests, ShaderPlan) &&
                             Stopped(factory.tape, a, factory.requests) &&
                             Reported(err.lastError, factory.tape, factory.requests, ShaderText(|factory.requests| - |a|))
      ensures !Failed(hr) ==> Progress(factory.tape, a, factory.requests, ShaderPlan, 4) &&
                              err.lastError == old(err.lastError)
      ensures |factory.requests| == |old(factory.requests)| + 1 ==>
        pixelTextureShader == Null && inputLayout == old(inputLayout)
      ensures |factory.requests| == |old(factory.requests)| + 2 ==>
        pixelTextureShader == Obj(old(factory.nextId)) && inputLayout == (if Failed(hr) then Null else Obj(old(factory.nextId) + 1))
    {
      var p;
      hr, p := Attempt(factory, err, a, ShaderPlan, 2, ErrTextureShader);
      pixelTextureShader := p;
      if Failed(hr) {
        return;
      }
      hr, p := Attempt(factory, err, a, ShaderPlan, 3, ErrInputLayout);
      inputLayout := p;
    }

    /** Binds the default vertex shader, the texture pixel shader and the linear, wrapping sampler. */
    method BindDefaultShaders()
      modifies this`samplerStates, log
      ensures samplerStates == TouchSampler(old(samplerStates), Linear, Wrap)
      ensures log.calls == old(log.calls) +
        [SetVertexShader(vertexShader), SetPixelShader(pixelTextureShader),
         SetSamplers(Some(SamplerAt(old(samplerStates), Linear, Wrap)))]
    {
      log.Issue(SetVertexShader(vertexShader));
      log.Issue(SetPixelShader(pixelTextureShader));
      samplerStates := TouchSampler(samplerStates, Linear, Wrap);
      log.Issue(SetSamplers(Some(samplerStates[(Linear, Wrap)])));
    }

    /**
     * Creates the default vertex shader, the two default pixel shaders and
     * the input layout, stopping at the first failure with 1; the object
     * whose creation failed is null. When all exist they are bound, with the
     * linear, wrapping sampler, and the result is 0.
     */
    method InitializeShaders() returns (r: int)
      requires device.Obj? && context.Obj?
      modifies this`vertexShader, this`pixelShader, this`pixelTextureShader, this`inputLayout, this`samplerStates,
               factory, log, err
      ensures StepDone(factory.tape, old(factory.requests), factory.requests, ShaderPlan, r)
      ensures r == 1 ==> Reported(err.lastError, factory.tape, factory.requests,
                                    ShaderText(|factory.requests| - |old(factory.requests)|)) &&
                         log.calls == old(log.calls) && samplerStates == old(samplerStates)
      ensures r == 1 && |factory.requests| == |old(factory.requests)| + 1 ==> vertexShader == Null
      ensures r == 1 && |factory.requests| == |old(factory.requests)| + 2 ==> pixelShader == Null
      ensures r == 1 && |factory.requests| == |old(factory.requests)| + 3 ==> pixelTextureShader == Null
      ensures r == 1 && |factory.requests| == |old(factory.requests)| + 4 ==> inputLayout == Null
      ensures r == 0 ==>
        err.lastError == old(err.lastError) &&
        vertexShader == Obj(old(factory.nextId)) && pixelShader == Obj(old(factory.nextId) + 1) &&
        pixelTextureShader == Obj(old(factory.nextId) + 2) && inputLayout == Obj(old(factory.nextId) + 3) &&
        samplerStates == TouchSampler(old(samplerStates), Linear, Wrap) &&
        log.calls == old(log.calls) +
          [SetVertexShader(vertexShader), SetPixelShader(pixelTextureShader),
           SetSamplers(Some(SamplerAt(old(samplerStates), Linear, Wrap)))]
    {
      RanStart(factory.tape, old(factory.requests), ShaderPlan);
      var hr := CreateVertexAndColorShaders(old(factory.requests));
      if Failed(hr) {
        return 1;
      }
      hr := CreateTextureShaderAndLayout(old(factory.requests));
      if Failed(hr) {
        return 1;
      }
      Done(factory.tape, old(factory.requests), factory.requests, ShaderPlan);
      BindDefaultShaders();
      return 0;
    }

    // -------------------------------------------------------------- teardown

    /** Releases every blend state of the table; the table keeps its (now dangling) entries. */
    method ReleaseBlendStates()
      modifies ledger
      ensures ledger.released == old(ledger.released) + BlendIds(blendStates, AllBlendSlots)
    {
      var i := 0;
      while i < |AllBlendSlots|
        invariant i <= |AllBlendSlots|
        invariant ledger.released == old(ledger.released) + BlendIds(blendStates, AllBlendSlots[..i])
      {
        var slot := AllBlendSlots[i];
        if slot in blendStates {
          var value := blendStates[slot];
          value := SafeRelease(ledger, value);
        }
        assert AllBlendSlots[..i + 1][..i] == AllBlendSlots[..i];
        i := i + 1;
      }
      assert AllBlendSlots[..i] == AllBlendSlots;
    }

    /** Releases every sampler of the table; the table keeps its (now dangling) entries. */
    method ReleaseSamplerStates()
      modifies ledger
      ensures ledger.released == old(ledger.released) + SamplerIds(samplerStates, AllSamplerKeys)
    {
      var i := 0;
      while i < |AllSamplerKeys|
        invariant i <= |AllSamplerKeys|
        invariant ledger.released == old(ledger.released) + SamplerIds(samplerStates, AllSamplerKeys[..i])
      {
        var key := AllSamplerKeys[i];
        if key in samplerStates {
          var value := samplerStates[key];
          value := SafeRelease(ledger, value);
        }
        assert AllSamplerKeys[..i + 1][..i] == AllSamplerKeys[..i];
        i := i + 1;
      }
      assert AllSamplerKeys[..i] == AllSamplerKeys;
    }

    /** The constant buffer, the input layout and the three default shaders. */
    method ReleaseShaderObjects()
      modifies this`perObjectBuffer, this`inputLayout, this`pixelShader, this`pixelTextureShader, this`vertexShader, ledger
      ensures ledger.released == old(ledger.released) + old(ShaderObjectIds())
      ensures perObjectBuffer == Null && inputLayout == Null && pixelShader == Null &&
              pixelTextureShader == Null && vertexShader == Null
    {
      perObjectBuffer := SafeRelease(ledger, perObjectBuffer);
      inputLayout := SafeRelease(ledger, inputLayout);
      pixelShader := SafeRelease(ledger, pixelShader);
      pixelTextureShader := SafeRelease(ledger, pixelTextureShader);
      vertexShader := SafeRelease(ledger, vertexShader);
      Group5(old(ledger.released), IdOf(old(perObjectBuffer)), IdOf(old(inputLayout)), IdOf(old(pixelShader)),
             IdOf(old(pixelTextureShader)), IdOf(old(vertexShader)));
    }

    /** The depth view and buffer, the render target, the swap chain, the context and the device. */
    method ReleaseTargetsAndDevice()
      modifies this`depthStencilView, this`depthStencil, this`renderTargetView, this`swapChain, this`context,
               this`device, ledger
      ensures ledger.released == old(ledger.released) + old(TargetAndDeviceIds())
      ensures depthStencilView == Null && depthStencil == Null && renderTargetView == Null &&
              swapChain == Null && context == Null && device == Null
    {
      depthStencilView := SafeRelease(ledger, depthStencilView);
      depthStencil := SafeRelease(ledger, depthStencil);
      renderTargetView := SafeRelease(ledger, renderTargetView);
      swapChain := SafeRelease(ledger, swapChain);
      context := SafeRelease(ledger, context);
      device := SafeRelease(ledger, device);
      Group6(old(ledger.released), IdOf(old(depthStencilView)), IdOf(old(depthStencil)), IdOf(old(renderTargetView)),
             IdOf(old(swapChain)), IdOf(old(context)), IdOf(old(device)));
    }

    /** Releases the entries of both tables, blend states first. */
    method ReleaseTables()
      modifies ledger
      ensures ledger.released == old(ledger.released) + TableIds(blendStates, samplerStates)
    {
      ReleaseBlendStates();
      ReleaseSamplerStates();
    }

    /** Releases the member pointers and clears them. */
    method ReleaseMembers()
      modifies this`perObjectBuffer, this`inputLayout, this`pixelShader, this`pixelTextureShader, this`vertexShader,
               this`depthStencilView, this`depthStencil, this`renderTargetView, this`swapChain, this`context,
               this`device, ledger
      ensures MembersNull()
      ensures ledger.released == old(ledger.released) + old(MemberIds())
    {
      ReleaseShaderObjects();
      ReleaseTargetsAndDevice();
      Group2(old(ledger.released), old(ShaderObjectIds()), old(TargetAndDeviceIds()));
    }

    /**
     * Releases everything the interface holds, the table entries first, and
     * clears the member pointers; a null pointer is skipped. The tables are
     * left holding their entries.
     */
    method Release()
      requires Valid()
      modifies this`perObjectBuffer, this`inputLayout, this`pixelShader, this`pixelTextureShader, this`vertexShader,
               this`depthStencilView, this`depthStencil, this`renderTargetView, this`swapChain, this`context,
               this`device, ledger
      ensures Valid() && MembersNull()
      ensures ledger.released == old(ledger.released) + TableIds(blendStates, samplerStates) + old(MemberIds())
    {
      ReleaseTables();
      ReleaseMembers();
    }

    // -------------------------------------------------------------- resize

    /** Unbinds the render target, releases the view and resizes the swap chain's buffers. */
    method ReleaseTargetAndResize() returns (hr: int)
      requires renderTargetView.Obj?
      modifies factory, ledger, log, err
      ensures hr == old(factory.Next()) && factory.requests == old(factory.requests) + [ResizeBuffers]
      ensures factory.nextId == old(factory.nextId)
      ensures log.calls == old(log.calls) + [UnbindRenderTargets]
      ensures ledger.released == old(ledger.released) + [renderTargetView.id]
      ensures Failed(hr) ==> Reported(err.lastError, factory.tape, factory.requests, ErrResize)
      ensures !Failed(hr) ==> err.lastError == old(err.lastError)
    {
      log.Issue(UnbindRenderTargets);
      ledger.Release(renderTargetView);
      hr := factory.Invoke(ResizeBuffers);
      if Failed(hr) {
        err.SetErrorCode(ErrResize, hr);
      }
    }

    /**
     * Adapts the buffers to a new window size: unbinds and releases the
     * render target view, resizes the swap chain and, when that succeeds,
     * makes a new view (its failure is ignored), sets the viewport and takes
     * the camera's world matrix. When the resize fails, or the new back
     * buffer cannot be obtained, the member still holds the released view;
     * when the new view cannot be made, the member is null.
     */
    method ResetOnSizeChange(world: Mat4)
      requires Valid()
      requires context.Obj? ==> renderTargetView.Obj?
      modifies this`renderTargetView, this`constants, factory, ledger, log, err
      ensures Valid()
      ensures old(context).Null? ==>
        factory.requests == old(factory.requests) && log.calls == old(log.calls) &&
        ledger.released == old(ledger.released) && err.lastError == old(err.lastError) &&
        renderTargetView == old(renderTargetView) && constants == old(constants)
      ensures old(context).Obj? && Failed(OutcomeAt(factory.tape, |old(factory.requests)|)) ==>
        factory.requests == old(factory.requests) + [ResizeBuffers] &&
        Reported(err.lastError, factory.tape, factory.requests, ErrResize) &&
        log.calls == old(log.calls) + [UnbindRenderTargets] &&
        ledger.released == old(ledger.released) + IdOf(old(renderTargetView)) &&
        renderTargetView == old(renderTargetView) && constants == old(constants)
      ensures old(context).Obj? && !Failed(OutcomeAt(factory.tape, |old(factory.requests)|)) ==>
        Ran(factory.tape, old(factory.requests) + [ResizeBuffers], factory.requests, RenderTargetPlan) &&
        log.calls == old(log.calls) + [UnbindRenderTargets, Call.SetViewport] &&
        constants == old(constants).(world := world)
      ensures old(context).Obj? && |factory.requests| == |old(factory.requests)| + 2 ==>
        Reported(err.lastError, factory.tape, factory.requests, ErrFrameBuffer) &&
        renderTargetView == old(renderTargetView) &&
        ledger.released == old(ledger.released) + IdOf(old(renderTargetView))
      ensures old(context).Obj? && |factory.requests| == |old(factory.requests)| + 3 &&
              Failed(OutcomeAt(factory.tape, |old(factory.requests)| + 2)) ==>
        Reported(err.lastError, factory.tape, factory.requests, ErrRenderTarget) &&
        renderTargetView == Null &&
        ledger.released == old(ledger.released) + IdOf(old(renderTargetView))
      ensures old(context).Obj? && |factory.requests| == |old(factory.requests)| + 3 &&
              !Failed(OutcomeAt(factory.tape, |old(factory.requests)| + 2)) ==>
        err.lastError == old(err.lastError) &&
        renderTargetView == Obj(old(factory.nextId) + 1) &&
        ledger.released == old(ledger.released) + IdOf(old(renderTargetView)) + [old(factory.nextId)]
    {
      if context.Null? {
        return;
      }
      var hr := ReleaseTargetAndResize();
      if Failed(hr) {
        return;
      }
      var r := CreateRenderTarget();
      ApplyViewport(world);
    }
  }
}

=== FILE: dgl.dfy ===
/**
 * Data shared by the whole library: the public enumerations of the C API
 * (their ordinal values, since C passes them as plain integers), the plain
 * data records of the headers, and the opaque interface pointer every GPU
 * object is reached through.
 */
module Dgl {
  datatype Option<T> = None | Some(value: T)

  /** One byte of a C string. */
  type Byte = b: int | 0 <= b < 0x100
  /** One UTF-16 code unit of a Windows wide string. */
  type WChar = w: int | 0 <= w < 0x1_0000

  /** Values of a 32-bit `unsigned` lie below this bound. */
  const U32Limit: int := 0x1_0000_0000

  /** Conversion of an integer to a 32-bit `unsigned`: the value modulo 2^32. */
  function U32(x: int): (u: nat)
    ensures u < U32Limit
    ensures 0 <= x < U32Limit ==> u == x
    ensures (u - x) % U32Limit == 0
  {
    x % U32Limit
  }

  /** An interface pointer: null, or a handle naming one backend object. */
  datatype Ptr = Null | Obj(id: nat)

  // DGL_DrawMode
  const DM_TRIANGLELIST: int := 0
  const DM_TRIANGLESTRIP: int := 1
  const DM_LINELIST: int := 2
  const DM_LINESTRIP: int := 3
  const DM_POINTLIST: int := 4

  // DGL_BlendMode
  const BM_NONE: int := 0
  const BM_BLEND: int := 1
  const BM_ADD: int := 2
  const BM_MULTIPLY: int := 3

  // DGL_TextureSampleMode
  const TSM_LINEAR: int := 0
  const TSM_POINT: int := 1

  // DGL_TextureAddressMode
  const AM_WRAP: int := 0
  const AM_MIRROR: int := 1
  const AM_CLAMP: int := 2
  const AM_MIRROR_ONCE: int := 3

  // DGL_PixelShaderMode and DGL_VertexShaderMode. Their declarations are not part of this model:
  // the values follow declaration order, COLOR, TEXTURE, CUSTOM and DEFAULT, CUSTOM.
  const PSM_COLOR: int := 0
  const PSM_TEXTURE: int := 1
  const PSM_CUSTOM: int := 2
  const VSM_DEFAULT: int := 0
  const VSM_CUSTOM: int := 1

  /** The blend states the interface creates, by its own internal names. */
  datatype BlendSlot = BlendNone | BlendTransparent | BlendAdd | BlendMultiply
  /** Texture filtering, the outer key of the sampler table. */
  datatype SampleMode = Linear | Point
  /** Texture addressing, the inner key of the sampler table. */
  datatype AddressMode = Wrap | Mirror | Clamp | MirrorOnce

  /** Primitive topologies the input assembler is given. */
  datatype Topology = TriangleList | TriangleStrip | LineList | LineStrip | PointList

  datatype Vec2 = Vec2(x: real, y: real)
  datatype Color = Color(r: real, g: real, b: real, a: real)
  /** A 4x4 float matrix, row-major, 16 entries. */
  type Mat4 = seq<real>

  const Identity: Mat4 := [1.0, 0.0, 0.0, 0.0,
                           0.0, 1.0, 0.0, 0.0,
                           0.0, 0.0, 1.0, 0.0,
                           0.0, 0.0, 0.0, 1.0]
  const ZeroMatrix: Mat4 := [0.0, 0.0, 0.0, 0.0,
                             0.0, 0.0, 0.0, 0.0,
                             0.0, 0.0, 0.0, 0.0,
                             0.0, 0.0, 0.0, 0.0]

  /** The per-object constant buffer the vertex shader reads. */
  datatype PerObject = PerObject(world: Mat4, transform: Mat4, tint: Color,
                                 texOffset: Vec2, alpha: real, padding: real)

  /** The constant buffer's initial contents: identity world, no tint, opaque. */
  const DefaultConstants: PerObject :=
    PerObject(Identity, ZeroMatrix, Color(0.0, 0.0, 0.0, 0.0), Vec2(0.0, 0.0), 1.0, 0.0)

  /** One vertex as the mesh accumulator and the vertex buffers hold it. */
  datatype Vertex = Vertex(position: Vec2, color: Color, texCoord: Vec2)

  /** A loaded pixel shader: the file it came from and the GPU object. */
  datatype PixelShader = PixelShader(filename: seq<Byte>, shader: Ptr)
}

=== FILE: errors.dfy ===
/**
 * The library's error slot: one string holding the most recent error
 * message, overwritten by every report, and the decimal rendering of the
 * status codes appended to some messages.
 */
module Errors {

  predicate IsDigit(c: char) { '0' <= c <= '9' }

  function DigitChar(d: nat): (c: char)
    requires d < 10
    ensures IsDigit(c) && c as int - '0' as int == d
  {
    ('0' as int + d) as char
  }

  /** Decimal digits of a natural number, most significant first, without leading zeros. */
  function Digits(n: nat): (s: string)
    ensures |s| >= 1
    ensures forall i :: 0 <= i < |s| ==> IsDigit(s[i])
    ensures s[0] == '0' ==> n == 0
    decreases n
  {
    if n < 10 then [DigitChar(n)] else Digits(n / 10) + [DigitChar(n % 10)]
  }

  /**
   * How a stream inserts a signed integer: a minus sign for negative values,
   * then the digits of the magnitude.
   */
  function DecimalString(n: int): (s: string)
    ensures |s| >= 1
    ensures n < 0 <==> s[0] == '-'
    ensures forall i :: (if n < 0 then 1 else 0) <= i < |s| ==> IsDigit(s[i])
  {
    if n < 0 then "-" + Digits(-n) else Digits(n)
  }

  function DigitValue(c: char): (d: nat)
    requires IsDigit(c)
    ensures d < 10
  {
    c as int - '0' as int
  }

  /** Reads back a string of decimal digits. */
  function ParseDigits(s: string): nat
    requires forall i :: 0 <= i < |s| ==> IsDigit(s[i])
  {
    if s == [] then 0
    else ParseDigits(s[..|s| - 1]) * 10 + DigitValue(s[|s| - 1])
  }

  /** Reads back an optionally signed decimal number. */
  function ParseDecimal(s: string): int
    requires |s| >= 1
    requires forall i :: (if s[0] == '-' then 1 else 0) <= i < |s| ==> IsDigit(s[i])
  {
    if s[0] == '-' then 0 - ParseDigits(s[1..]) else ParseDigits(s)
  }

  lemma {:induction false} DigitsRoundTrip(n: nat)
    ensures ParseDigits(Digits(n)) == n
    decreases n
  {
    if n >= 10 {
      var s := Digits(n);
      assert s[..|s| - 1] == Digits(n / 10);
      DigitsRoundTrip(n / 10);
    }
  }

  /** A run of digits parses as its value, and with a leading '-' as the negation of that value. */
  lemma ParseSign(d: string)
    requires |d| >= 1 && forall i :: 0 <= i < |d| ==> IsDigit(d[i])
    ensures ParseDecimal(d) == ParseDigits(d)
    ensures ParseDecimal("-" + d) == 0 - ParseDigits(d)
  {
    assert ("-" + d)[1..] == d;
  }

  /** A negative code reads back from its rendering. */
  lemma NegativeRoundTrip(n: int)
    requires n < 0
    ensures ParseDecimal(DecimalString(n)) == n
  {
    var d := Digits(-n);
    assert DecimalString(n) == "-" + d;
    ParseSign(d);
    DigitsRoundTrip(-n);
  }

  /** The rendering of a status code is unambiguous: it reads back as the same code. */
  lemma {:induction false} DecimalRoundTrip(n: int)
    ensures ParseDecimal(DecimalString(n)) == n
  {
    if n < 0 {
      NegativeRoundTrip(n);
    } else {
      ParseSign(Digits(n));
      DigitsRoundTrip(n);
    }
  }

  /** The error slot shared by every part of the library. */
  class ErrorHandler {
    var lastError: string

    constructor ()
      ensures lastError == ""
    {
      lastError := "";
    }

    /** The most recent message; reading it leaves the slot as it was. */
    function GetLastError(): (s: string)
      reads this
      ensures s == lastError
    {
      lastError
    }

    /** Replaces the stored message by a plain text. */
    method SetError(text: string)
      modifies this
      ensures lastError == text
    {
      lastError := text;
    }

    /** Replaces the stored message by a text followed by a status code in decimal. */
    method SetErrorCode(text: string, hr: int)
      modifies this
      ensures lastError == text + DecimalString(hr)
      ensures ParseDecimal(lastError[|text|..]) == hr
    {
      lastError := text + DecimalString(hr);
      assert lastError[|text|..] == DecimalString(hr);
      DecimalRoundTrip(hr);
    }
  }
}

=== FILE: graphics_system.dfy ===
/**
 * The graphics system: owns the Direct3D interface and the mesh
 * accumulator, brings them up and down, counts the textures and meshes
 * handed out and not yet released (a leak is reported at shutdown), and
 * forwards the C API's texture, mesh and drawing calls.
 */
module Graphics {
  import opened Dgl
  import opened Backend
  import Errors
  import Textures
  import Meshes
  import opened D3DInterface

  const ErrLeak: string := "Not all meshes and textures were released"

  class GraphicsSystem {
    const d3d: D3D
    const meshes: Meshes.MeshManager
    /** Textures loaded and not released, `mTextures`. */
    var textures: int
    /** Meshes made and not released, `mMeshes`. */
    var meshCount: int
    /** The texture the next mesh is drawn with. */
    var currentTexture: Textures.Texture?
    var initialized: bool

    /** The mesh manager works with the interface's backend and reports to its error slot. */
    ghost predicate Wired()
      reads this, meshes
    {
      meshes.factory == d3d.factory && meshes.ledger == d3d.ledger && meshes.err == d3d.err
    }

    constructor (factory: Factory, ledger: Ledger, log: CallLog, err: Errors.ErrorHandler)
      ensures Wired() && d3d.Valid() && d3d.MembersNull() && fresh(d3d) && fresh(meshes)
      ensures d3d.factory == factory && d3d.ledger == ledger && d3d.log == log && d3d.err == err
      ensures fresh(d3d.background) && meshes.vertexList == []
      ensures textures == 0 && meshCount == 0 && currentTexture == null && !initialized
    {
      d3d := new D3D(factory, ledger, log, err);
      meshes := new Meshes.MeshManager(factory, ledger, err);
      textures, meshCount := 0, 0;
      currentTexture := null;
      initialized := false;
    }

    /** Releases what a failed initialization made and reports the failure. */
    method Abandon() returns (r: int, ghost held: seq<nat>)
      requires d3d.Valid()
      modifies d3d`perObjectBuffer, d3d`inputLayout, d3d`pixelShader, d3d`pixelTextureShader, d3d`vertexShader,
               d3d`depthStencilView, d3d`depthStencil, d3d`renderTargetView, d3d`swapChain, d3d`context,
               d3d`device, d3d.ledger
      ensures r == 1 && d3d.Valid() && d3d.MembersNull() && held == old(d3d.MemberIds())
      ensures d3d.ledger.released == old(d3d.ledger.released) + TableIds(d3d.blendStates, d3d.samplerStates) + held
    {
      held := d3d.MemberIds();
      d3d.Release();
      r := 1;
    }

    /**
     * The interface's initialization; when it fails, what was made is
     * released. `stepReleased` is what the initialization itself released,
     * and `held` the ids the member pointers held when it stopped.
     */
    method InitializeInterface(world: Mat4) returns (r: int, ghost stepReleased: seq<nat>, ghost held: seq<nat>)
      requires d3d.Valid()
      modifies d3d`device, d3d`context, d3d`swapChain, d3d`renderTargetView, d3d`blendStates,
               d3d`perObjectBuffer, d3d`samplerStates, d3d`depthStencil, d3d`depthStencilView, d3d`constants,
               d3d`vertexShader, d3d`pixelShader, d3d`pixelTextureShader, d3d`inputLayout,
               d3d.factory, d3d.ledger, d3d.log, d3d.err
      ensures d3d.Valid()
      ensures StepDone(d3d.factory.tape, old(d3d.factory.requests), d3d.factory.requests, InitPlan, r)
      ensures r == 0 ==> d3d.ledger.released == old(d3d.ledger.released) + stepReleased
      ensures r == 1 ==>
        d3d.ledger.released ==
          old(d3d.ledger.released) + stepReleased + TableIds(d3d.blendStates, d3d.samplerStates) + held
      ensures r == 1 ==>
        d3d.MembersNull()
      ensures r == 0 ==>
        d3d.Created() && d3d.err.lastError == old(d3d.err.lastError) &&
        d3d.constants == old(d3d.constants).(world := world)
    {
      r := d3d.InitializeD3D(world);
      stepReleased := d3d.ledger.released[|old(d3d.ledger.released)|..];
      GrewSplit(old(d3d.ledger.released), d3d.ledger.released);
      held := [];
      if r != 0 {
        r, held := Abandon();
      }
    }

    /**
     * The default shaders of an initialized interface; when they fail, what
     * was made is released. `held` is the ids the member pointers held when
     * the shaders stopped.
     */
    method InitializeShadersOrAbandon() returns (r: int, ghost held: seq<nat>)
      requires d3d.Valid() && d3d.Created()
      modifies d3d`perObjectBuffer, d3d`inputLayout, d3d`pixelShader, d3d`pixelTextureShader, d3d`vertexShader,
               d3d`depthStencilView, d3d`depthStencil, d3d`renderTargetView, d3d`swapChain, d3d`context,
               d3d`device, d3d`samplerStates, d3d.factory, d3d.ledger, d3d.log, d3d.err
      ensures d3d.Valid()
      ensures StepDone(d3d.factory.tape, old(d3d.factory.requests), d3d.factory.requests, ShaderPlan, r)
      ensures r == 0 ==> d3d.ledger.released == old(d3d.ledger.released)
      ensures r == 1 ==>
        d3d.ledger.released == old(d3d.ledger.released) + TableIds(d3d.blendStates, d3d.samplerStates) + held
      ensures r == 1 ==>
        d3d.MembersNull()
      ensures r == 0 ==>
        d3d.Created() && d3d.err.lastError == old(d3d.err.lastError) &&
        d3d.vertexShader.Obj? && d3d.pixelShader.Obj? && d3d.pixelTextureShader.Obj? && d3d.inputLayout.Obj?
    {
      r := d3d.InitializeShaders();
      held := [];
      if r != 0 {
        r, held := Abandon();
      }
    }

    /**
     * Initializes the interface, then its default shaders. The first that
     * fails stops the initialization: what was made is released, 1 is
     * returned and the flag stays as it was. On success the system is
     * initialized and 0 is returned. `stepReleased` is what the interface's
     * initialization itself released, and `held` the ids the member
     * pointers held when the initialization stopped.
     */
    method Initialize(world: Mat4) returns (r: int, ghost stepReleased: seq<nat>, ghost held: seq<nat>)
      requires d3d.Valid()
      modifies d3d`device, d3d`context, d3d`swapChain, d3d`renderTargetView, d3d`blendStates,
               d3d`perObjectBuffer, d3d`samplerStates, d3d`depthStencil, d3d`depthStencilView, d3d`constants,
               d3d`vertexShader, d3d`pixelShader, d3d`pixelTextureShader, d3d`inputLayout,
               d3d.factory, d3d.ledger, d3d.log, d3d.err, this`initialized
      ensures d3d.Valid()
      ensures StepDone(d3d.factory.tape, old(d3d.factory.requests), d3d.factory.requests, InitPlan + ShaderPlan, r)
      ensures r == 0 ==> d3d.ledger.released == old(d3d.ledger.released) + stepReleased
      ensures r == 1 ==>
        d3d.ledger.released ==
          old(d3d.ledger.released) + stepReleased + TableIds(d3d.blendStates, d3d.samplerStates) + held
      ensures r == 1 ==> initialized == old(initialized) && d3d.MembersNull()
      ensures r == 0 ==>
        initialized && d3d.Created() && d3d.err.lastError == old(d3d.err.lastError) &&
        d3d.vertexShader.Obj? && d3d.pixelShader.Obj? && d3d.pixelTextureShader.Obj? && d3d.inputLayout.Obj? &&
        d3d.constants == old(d3d.constants).(world := world)
    {
      r, stepReleased, held := InitializeInterface(world);
      if r != 0 {
        StepStops(d3d.factory.tape, old(d3d.factory.requests), d3d.factory.requests, InitPlan, ShaderPlan);
        return;
      }
      label InterfaceDone:
      r, held := InitializeShadersOrAbandon();
      StepsThen(d3d.factory.tape, old(d3d.factory.requests), old@InterfaceDone(d3d.factory.requests),
                d3d.factory.requests, InitPlan, ShaderPlan, r);
      if r != 0 {
        return;
      }
      initialized := true;
    }

    /**
     * Shuts an initialized system down: reports textures or meshes still
     * held, returning 1 then, releases the interface and clears the flag.
     * An uninitialized system is left alone and 0 is returned.
     */
    method ShutDown() returns (r: int)
      requires d3d.Valid()
      modifies d3d`perObjectBuffer, d3d`inputLayout, d3d`pixelShader, d3d`pixelTextureShader, d3d`vertexShader,
               d3d`depthStencilView, d3d`depthStencil, d3d`renderTargetView, d3d`swapChain, d3d`context,
               d3d`device, d3d.ledger, d3d.err, this`initialized
      ensures d3d.Valid()
      ensures !old(initialized) ==>
        r == 0 && !initialized && d3d.ledger.released == old(d3d.ledger.released) &&
        d3d.err.lastError == old(d3d.err.lastError) && d3d.device == old(d3d.device) &&
        unchanged(d3d, d3d.ledger, d3d.err)
      ensures old(initialized) ==>
        !initialized && d3d.MembersNull() &&
        d3d.ledger.released == old(d3d.ledger.released) + TableIds(d3d.blendStates, d3d.samplerStates) +
                               old(d3d.MemberIds()) &&
        (r == 1 <==> meshCount != 0 || textures != 0) && (r == 0 <==> meshCount == 0 && textures == 0) &&
        d3d.err.lastError == (if r == 1 then ErrLeak else old(d3d.err.lastError))
    {
      if !initialized {
        return 0;
      }
      r := 0;
      if meshCount != 0 || textures != 0 {
        r := 1;
        d3d.err.SetError(ErrLeak);
      }
      d3d.Release();
      initialized := false;
    }

    // -------------------------------------------------------------- textures

    /** Loads a texture from a file; a texture returned is counted. */
    method LoadTexture(fileName: seq<Byte>) returns (t: Textures.Texture?)
      modifies d3d.factory, d3d.ledger, d3d.err, this`textures
      ensures textures == old(textures) + (if t == null then 0 else 1)
      ensures t != null <==> d3d.device.Obj? && !Failed(old(d3d.factory.Next()))
      ensures t != null ==> fresh(t) && t.texture.Obj? && t.view.Obj?
    {
      t := Textures.LoadTexture(fileName, d3d.device, d3d.factory, d3d.ledger, d3d.err);
      if t != null {
        textures := textures + 1;
      }
    }

    /** Makes a texture from pixels in memory; a texture returned is counted. */
    method LoadTextureFromMemory(data: Option<seq<Byte>>, width: int, height: int) returns (t: Textures.Texture?)
      modifies d3d.factory, d3d.ledger, d3d.err, this`textures
      ensures textures == old(textures) + (if t == null then 0 else 1)
      ensures t != null ==>
        d3d.device.Obj? && data.Some? && width != 0 && height != 0 &&
        fresh(t) && t.texture.Obj? && t.view.Obj?
    {
      t := Textures.LoadTextureFromMemory(data, width, height, d3d.device, d3d.factory, d3d.ledger, d3d.err);
      if t != null {
        textures := textures + 1;
      }
    }

    /** Releases a texture and uncounts it; a null texture is ignored. */
    method ReleaseTexture(t: Textures.Texture?)
      modifies d3d.ledger, this`textures
      ensures t == null ==> textures == old(textures) && d3d.ledger.released == old(d3d.ledger.released)
      ensures t != null ==>
        textures == old(textures) - 1 &&
        d3d.ledger.released == old(d3d.ledger.released) + Textures.TextureIds(t)
    {
      if t == null {
        return;
      }
      Textures.ReleaseTexture(d3d.ledger, t);
      textures := textures - 1;
    }

    method SetCurrentTexture(t: Textures.Texture?)
      modifies this`currentTexture
      ensures currentTexture == t
    {
      currentTexture := t;
    }

    // -------------------------------------------------------------- meshes

    /** Starts a new mesh: the accumulator is emptied. */
    method StartMesh()
      modifies meshes`vertexList
      ensures meshes.vertexList == []
    {
      meshes.vertexList := [];
    }

    /** Appends one vertex to the accumulator. */
    method AddVertex(position: Vec2, color: Color, texCoord: Vec2)
      modifies meshes`vertexList
      ensures meshes.vertexList == old(meshes.vertexList) + [Vertex(position, color, texCoord)]
    {
      meshes.vertexList := meshes.vertexList + [Vertex(position, color, texCoord)];
    }

    /** Makes a mesh from the accumulator, which is kept; a mesh returned is counted. */
    method EndMesh() returns (m: Meshes.Mesh?)
      requires Wired()
      modifies d3d.factory, d3d.ledger, d3d.err, this`meshCount
      ensures meshCount == old(meshCount) + (if m == null then 0 else 1)
      ensures m != null <==> d3d.device.Obj? && meshes.vertexList != [] && !Failed(old(d3d.factory.Next()))
      ensures m != null ==> fresh(m) && m.vertexList == Meshes.Snapshot(meshes.vertexList) && m.indices.None?
    {
      m := meshes.CreateMesh(d3d.device);
      if m != null {
        meshCount := meshCount + 1;
      }
    }

    /** Makes an indexed mesh from the accumulator, which is kept; a mesh returned is counted. */
    method EndMeshIndexed(indices: seq<nat>, indexCount: nat) returns (m: Meshes.Mesh?)
      requires Wired() && indexCount <= |indices| && indexCount < U32Limit
      modifies d3d.factory, d3d.ledger, d3d.err, this`meshCount
      ensures meshCount == old(meshCount) + (if m == null then 0 else 1)
      ensures m != null ==>
        d3d.device.Obj? && indexCount != 0 && meshes.vertexList != [] &&
        fresh(m) && m.vertexList == Meshes.Snapshot(meshes.vertexList) && m.indices == Some(indices[..indexCount])
    {
      m := meshes.CreateMeshIndexed(indices, indexCount, d3d.device);
      if m != null {
        meshCount := meshCount + 1;
      }
    }

    /** Releases a mesh and uncounts it; a null mesh is ignored. */
    method ReleaseMesh(m: Meshes.Mesh?)
      modifies d3d.ledger, this`meshCount
      ensures m == null ==> meshCount == old(meshCount) && d3d.ledger.released == old(d3d.ledger.released)
      ensures m != null ==>
        meshCount == old(meshCount) - 1 && d3d.ledger.released == old(d3d.ledger.released) + Meshes.MeshIds(m)
    {
      if m == null {
        return;
      }
      Meshes.ReleaseMesh(d3d.ledger, m);
      meshCount := meshCount - 1;
    }

    /**
     * Draws a mesh with the current texture and the shaders of the current
     * modes; without a context even a null mesh is only reported.
     */
    method DrawMesh(m: Meshes.Mesh?, mode: int)
      requires d3d.context.Obj? ==> m != null
      modifies d3d.log, d3d.err
      ensures d3d.context.Null? ==> d3d.log.calls == old(d3d.log.calls) && d3d.err.lastError == Meshes.ErrDrawNotInitialized
      ensures d3d.context.Obj? ==>
        d3d.log.calls == old(d3d.log.calls) +
          (Meshes.BindCalls(mode, d3d.GetCurrentVertexShader(), d3d.GetCurrentPixelShader(),
                            Meshes.BoundView(d3d.pixelMode, Meshes.ViewOf(currentTexture)), m.vertexBuffer) +
           [UpdateConstants(d3d.perObjectBuffer, d3d.constants), SetConstantBuffer(d3d.perObjectBuffer)] +
           Meshes.DrawCalls(m.vertexCount, m.indexCount, m.indexBuffer))
    {
      Meshes.DrawMesh(m, mode, currentTexture, d3d.GetCurrentVertexShader(), d3d.GetCurrentPixelShader(), d3d);
    }
  }

  // -------------------------------------------------------------- C API

  /** `DGL_Graphics_FreeTexture`: releases the texture; the caller's pointer is null afterwards. */
  method FreeTexture(g: GraphicsSystem, t: Textures.Texture?) returns (cleared: Textures.Texture?)
    modifies g.d3d.ledger, g`textures
    ensures cleared == null
    ensures g.textures == old(g.textures) - (if t == null then 0 else 1)
    ensures g.d3d.ledger.released == old(g.d3d.ledger.released) + (if t == null then [] else Textures.TextureIds(t))
  {
    g.ReleaseTexture(t);
    return null;
  }

  /** `DGL_Graphics_FreeMesh`: releases the mesh; the caller's pointer is null afterwards. */
  method FreeMesh(g: GraphicsSystem, m: Meshes.Mesh?) returns (cleared: Meshes.Mesh?)
    modifies g.d3d.ledger, g`meshCount
    ensures cleared == null
    ensures g.meshCount == old(g.meshCount) - (if m == null then 0 else 1)
    ensures g.d3d.ledger.released == old(g.d3d.ledger.released) + (if m == null then [] else Meshes.MeshIds(m))
  {
    g.ReleaseMesh(m);
    return null;
  }

  /** `DGL_Graphics_AddTriangle`: appends the three vertices in order. */
  method AddTriangle(g: GraphicsSystem, position1: Vec2, color1: Color, texCoord1: Vec2,
                     position2: Vec2, color2: Color, texCoord2: Vec2,
                     position3: Vec2, color3: Color, texCoord3: Vec2)
    modifies g.meshes`vertexList
    ensures g.meshes.vertexList ==
      old(g.meshes.vertexList) + [Vertex(position1, color1, texCoord1), Vertex(position2, color2, texCoord2),
                                  Vertex(position3, color3, texCoord3)]
  {
    g.AddVertex(position1, color1, texCoord1);
    g.AddVertex(position2, color2, texCoord2);
    g.AddVertex(position3, color3, texCoord3);
  }

  /** `DGL_Graphics_SetBackgroundColor`: the red, green and blue parts; the alpha slot keeps its value. */
  method SetBackgroundColor(g: GraphicsSystem, color: Color)
    requires g.d3d.background.Length == 4
    modifies g.d3d.background
    ensures g.d3d.background[..] == [color.r, color.g, color.b, old(g.d3d.background[3])]
  {
    g.d3d.background[0] := color.r;
    g.d3d.background[1] := color.g;
    g.d3d.background[2] := color.b;
  }
}

=== FILE: input.dfy ===
/**
 * The keyboard and mouse wheel state: the current and the previous state of
 * every key, the edges between them (a key pressed or let go since the last
 * frame), and the wheel movement of the current frame.
 */
module Input {
  import opened Dgl
  import Errors

  const ErrSetKeyState: string := "Invalid character key passed into SetKeyState"
  const ErrKeyDown: string := "Invalid character key passed into KeyDown"
  const ErrKeyTriggered: string := "Invalid character key passed into KeyTriggered"
  const ErrKeyReleased: string := "Invalid character key passed into KeyReleased"

  /** The key states after one key is set: keys outside the table are not stored. */
  function SetKey(keys: seq<bool>, key: int, state: bool): (r: seq<bool>)
    ensures |r| == |keys|
    ensures 0 <= key < |keys| ==> r[key] == state
    ensures forall k :: 0 <= k < |keys| && k != key ==> r[k] == keys[k]
  {
    if 0 <= key < |keys| then keys[key := state] else keys
  }

  /** Setting a key twice keeps the second state only. */
  lemma SetKeyTwice(keys: seq<bool>, key: int, first: bool, second: bool)
    ensures SetKey(SetKey(keys, key, first), key, second) == SetKey(keys, key, second)
  {
  }

  class InputSystem {
    /** The number of keys the tables hold, `cInputKeyCount`. */
    const keyCount: nat
    const keyState: array<bool>
    const prevKeyState: array<bool>
    var mouseWheelDelta: int
    const err: Errors.ErrorHandler

    ghost predicate Valid()
      reads this
    {
      keyState.Length == keyCount && prevKeyState.Length == keyCount && keyState != prevKeyState
    }

    /** Every key starts up, in both tables. */
    constructor (keyCount: nat, err: Errors.ErrorHandler)
      ensures Valid() && this.keyCount == keyCount && this.err == err
      ensures fresh(keyState) && fresh(prevKeyState)
      ensures forall k :: 0 <= k < keyCount ==> !keyState[k] && !prevKeyState[k]
      ensures mouseWheelDelta == 0
    {
      this.keyCount := keyCount;
      keyState := new bool[keyCount](_ => false);
      prevKeyState := new bool[keyCount](_ => false);
      mouseWheelDelta := 0;
      this.err := err;
    }

    /** The key is down now. */
    predicate Down(key: nat)
      requires Valid() && key < keyCount
      reads this, keyState
    {
      keyState[key]
    }

    /** The key is down now and was up in the previous frame. */
    predicate Triggered(key: nat)
      requires Valid() && key < keyCount
      reads this, keyState, prevKeyState
      ensures Triggered(key) ==> Down(key) && !Released(key)
    {
      keyState[key] && !prevKeyState[key]
    }

    /** The key is up now and was down in the previous frame. */
    predicate Released(key: nat)
      requires Valid() && key < keyCount
      reads this, keyState, prevKeyState
      ensures Released(key) ==> !Down(key)
    {
      !keyState[key] && prevKeyState[key]
    }

    /**
     * Starts a new frame: the current key states become the previous ones,
     * so no key has an edge until a key state is set again, and the wheel
     * delta is cleared.
     */
    method Update()
      requires Valid()
      modifies prevKeyState, this`mouseWheelDelta
      ensures Valid() && prevKeyState[..] == keyState[..] && keyState[..] == old(keyState[..])
      ensures forall k :: 0 <= k < keyCount ==> !Triggered(k) && !Released(k)
      ensures mouseWheelDelta == 0
    {
      forall k | 0 <= k < keyCount {
        prevKeyState[k] := keyState[k];
      }
      mouseWheelDelta := 0;
    }

    function GetMouseScrollDelta(): (d: int)
      reads this
    {
      mouseWheelDelta
    }

    /** Records the wheel movement of the frame, read back as it was set. */
    method SetMouseScrollDelta(delta: int)
      modifies this`mouseWheelDelta
      ensures GetMouseScrollDelta() == delta
    {
      mouseWheelDelta := delta;
    }

    /** Sets the state of one key; a key outside the table is reported and nothing is stored. */
    method SetKeyState(key: Byte, state: bool)
      requires Valid()
      modifies keyState, err
      ensures keyState[..] == SetKey(old(keyState[..]), key, state)
      ensures key < keyCount ==> Down(key) == state && err.lastError == old(err.lastError)
      ensures key >= keyCount ==> err.lastError == ErrSetKeyState
    {
      if key >= keyCount {
        err.SetError(ErrSetKeyState);
        return;
      }
      keyState[key] := state;
    }

    /** Whether the key is down; false, with a report, for a key outside the table. */
    method KeyDown(key: Byte) returns (down: bool)
      requires Valid()
      modifies err
      ensures key < keyCount ==> down == Down(key) && err.lastError == old(err.lastError)
      ensures key >= keyCount ==> !down && err.lastError == ErrKeyDown
    {
      if key >= keyCount {
        err.SetError(ErrKeyDown);
        return false;
      }
      return keyState[key];
    }

    /** Whether the key went down since the last frame; false, with a report, for a key outside the table. */
    method KeyTriggered(key: Byte) returns (triggered: bool)
      requires Valid()
      modifies err
      ensures key < keyCount ==> triggered == Triggered(key) && err.lastError == old(err.lastError)
      ensures key >= keyCount ==> !triggered && err.lastError == ErrKeyTriggered
    {
      if key >= keyCount {
        err.SetError(ErrKeyTriggered);
        return false;
      }
      return keyState[key] && !prevKeyState[key];
    }

    /** Whether the key went up since the last frame; false, with a report, for a key outside the table. */
    method KeyReleased(key: Byte) returns (released: bool)
      requires Valid()
      modifies err
      ensures key < keyCount ==> released == Released(key) && err.lastError == old(err.lastError)
      ensures key >= keyCount ==> !released && err.lastError == ErrKeyReleased
    {
      if key >= keyCount {
        err.SetError(ErrKeyReleased);
        return false;
      }
      return !keyState[key] && prevKeyState[key];
    }
  }
}

=== FILE: mesh.dfy ===
/**
 * The mesh manager: the vertex accumulator meshes are made from, the
 * creation of plain and indexed meshes with their GPU buffers, their
 * release, and the calls a draw of a mesh makes on the immediate context.
 */
module Meshes {
  import opened Dgl
  import opened Backend
  import Errors
  import Textures
  import D3DInterface

  const ErrMeshNotInitialized: string := "Trying to create mesh when Graphics is not initialized."
  const ErrNoVertices: string := "Couldn't create mesh, no vertices added."
  const ErrNoIndices: string := "Couldn't create indexed mesh, no indexes."
  const ErrDrawNotInitialized: string := "Trying to draw mesh when Graphics is not initialized."
  const ErrInvalidDrawMode: string := "Passed in an invalid DGL_DrawMode value to DGL_Graphics_DrawMesh."

  /** A mesh: its own copy of the vertices and indices, and the GPU buffers made from them. */
  class Mesh {
    var vertexList: seq<Vertex>
    var vertexCount: nat
    /** `None` for a mesh without indices. */
    var indices: Option<seq<nat>>
    var indexCount: nat
    var vertexBuffer: Ptr
    var indexBuffer: Ptr

    constructor ()
      ensures vertexList == [] && vertexCount == 0 && indices == None && indexCount == 0
      ensures vertexBuffer == Null && indexBuffer == Null
    {
      vertexList, vertexCount := [], 0;
      indices, indexCount := None, 0;
      vertexBuffer, indexBuffer := Null, Null;
    }
  }

  /** The ids a release of the mesh gives back: the vertex buffer, then the index buffer. */
  function MeshIds(m: Mesh): seq<nat>
    reads m
  {
    IdOf(m.vertexBuffer) + IdOf(m.indexBuffer)
  }

  /**
   * What a new mesh copies of the accumulator: as many vertices as its
   * length converted to a 32-bit `unsigned`.
   */
  function Snapshot(vs: seq<Vertex>): (s: seq<Vertex>)
    ensures |s| == U32(|vs|) && s <= vs
    ensures |vs| < U32Limit ==> s == vs
  {
    vs[..U32(|vs|)]
  }

  /** A non-empty accumulator of a length a 32-bit count can hold gives a non-empty copy. */
  lemma SnapshotNonEmpty(vs: seq<Vertex>)
    requires 0 < |vs| < U32Limit
    ensures |Snapshot(vs)| == |vs| > 0
  {
  }

  // -------------------------------------------------------------- draw decisions

  /** The topology a draw mode selects; no topology for a value outside the enumeration. */
  function TopologyFor(mode: int): (t: Option<Topology>)
    ensures t.Some? <==> DM_TRIANGLELIST <= mode <= DM_POINTLIST
  {
    if mode == DM_TRIANGLELIST then Some(TriangleList)
    else if mode == DM_LINELIST then Some(LineList)
    else if mode == DM_LINESTRIP then Some(LineStrip)
    else if mode == DM_POINTLIST then Some(PointList)
    else if mode == DM_TRIANGLESTRIP then Some(TriangleStrip)
    else None
  }

  /** The draw mode naming a topology. */
  function DrawModeOf(t: Topology): int
  {
    match t
    case TriangleList => DM_TRIANGLELIST
    case TriangleStrip => DM_TRIANGLESTRIP
    case LineList => DM_LINELIST
    case LineStrip => DM_LINESTRIP
    case PointList => DM_POINTLIST
  }

  /** Draw modes and topologies correspond one to one. */
  lemma TopologyRoundTrip(mode: int, t: Topology)
    ensures TopologyFor(mode) == Some(t) <==> mode == DrawModeOf(t)
  {
  }

  /**
   * The view bound for the pixel shader: the texture's view when the pixel
   * mode is not the colour mode and a texture is set, no view otherwise.
   */
  function BoundView(pixelMode: int, texture: Option<Ptr>): (v: Ptr)
    ensures pixelMode != PSM_COLOR && texture.Some? ==> v == texture.value
    ensures pixelMode == PSM_COLOR || texture.None? ==> v == Null
  {
    if pixelMode != PSM_COLOR && texture.Some? then texture.value else Null
  }

  /** The calls that draw a mesh: an indexed draw exactly when it has indices. */
  function DrawCalls(vertexCount: nat, indexCount: nat, indexBuffer: Ptr): (calls: seq<Call>)
    ensures indexCount == 0 ==> calls == [Draw(vertexCount)]
    ensures indexCount != 0 ==> |calls| == 2 && calls[0] == SetIndexBuffer(indexBuffer) && calls[1] == DrawIndexed(indexCount)
  {
    if indexCount == 0 then [Draw(vertexCount)] else [SetIndexBuffer(indexBuffer), DrawIndexed(indexCount)]
  }

  /** The calls of a draw before the constants are uploaded: topology, shaders, view and vertex buffer. */
  function BindCalls(mode: int, vertexShader: Ptr, pixelShader: Ptr, view: Ptr, vertexBuffer: Ptr): (calls: seq<Call>)
    ensures |calls| == (if TopologyFor(mode).Some? then 5 else 4)
    ensures TopologyFor(mode).Some? ==> calls[0] == SetTopology(TopologyFor(mode).value)
    ensures calls[|calls| - 4..] == [SetVertexShader(vertexShader), SetPixelShader(pixelShader),
                                      SetShaderResource(view), SetVertexBuffer(vertexBuffer)]
  {
    (if TopologyFor(mode).Some? then [SetTopology(TopologyFor(mode).value)] else []) +
    [SetVertexShader(vertexShader), SetPixelShader(pixelShader), SetShaderResource(view), SetVertexBuffer(vertexBuffer)]
  }

  /** An invalid mode only leaves the topology as it was: the rest of the draw is the same. */
  lemma InvalidModeDraws(mode: int, valid: int, vs: Ptr, ps: Ptr, view: Ptr, vb: Ptr)
    requires TopologyFor(mode).None? && TopologyFor(valid).Some?
    ensures BindCalls(valid, vs, ps, view, vb)[1..] == BindCalls(mode, vs, ps, view, vb)
  {
  }

  // -------------------------------------------------------------- release

  /** A null mesh is ignored; otherwise each buffer it holds is released, the vertex buffer first. */
  method ReleaseMesh(ledger: Ledger, m: Mesh?)
    modifies ledger
    ensures ledger.released == old(ledger.released) + (if m == null then [] else MeshIds(m))
  {
    if m == null {
      return;
    }
    if m.vertexBuffer.Obj? {
      ledger.Release(m.vertexBuffer);
    }
    if m.indexBuffer.Obj? {
      ledger.Release(m.indexBuffer);
    }
  }

  /** Makes the buffer for the mesh's vertices; on failure reports it and releases the mesh. */
  method AddVertexBuffer(m: Mesh, factory: Factory, ledger: Ledger, err: Errors.ErrorHandler) returns (ok: bool)
    requires m.vertexBuffer == Null && m.indexBuffer == Null
    modifies m`vertexBuffer, factory, ledger, err
    ensures factory.requests == old(factory.requests) + [VertexBuffer(m.vertexList)]
    ensures ok <==> !Failed(old(factory.Next()))
    ensures ok ==> m.vertexBuffer == Obj(old(factory.nextId)) && err.lastError == old(err.lastError) &&
                   factory.nextId == old(factory.nextId) + 1
    ensures !ok ==> Reported(err.lastError, factory.tape, factory.requests, ErrVertexBuffer)
    ensures ledger.released == old(ledger.released)
  {
    var hr, buffer := factory.Create(VertexBuffer(m.vertexList));
    m.vertexBuffer := buffer;
    if Failed(hr) {
      err.SetErrorCode(ErrVertexBuffer, hr);
      ReleaseMesh(ledger, m);
      return false;
    }
    return true;
  }

  /** Makes the buffer for the mesh's indices; on failure reports it and releases the mesh. */
  method AddIndexBuffer(m: Mesh, factory: Factory, ledger: Ledger, err: Errors.ErrorHandler) returns (ok: bool)
    requires m.indices.Some? && m.indexBuffer == Null
    modifies m`indexBuffer, factory, ledger, err
    ensures factory.requests == old(factory.requests) + [IndexBuffer(m.indices.value)]
    ensures ok <==> !Failed(old(factory.Next()))
    ensures ok ==> m.indexBuffer == Obj(old(factory.nextId)) && err.lastError == old(err.lastError) &&
                   ledger.released == old(ledger.released)
    ensures !ok ==> Reported(err.lastError, factory.tape, factory.requests, ErrIndexBuffer) &&
                    ledger.released == old(ledger.released) + IdOf(m.vertexBuffer)
  {
    var hr, buffer := factory.Create(IndexBuffer(m.indices.value));
    m.indexBuffer := buffer;
    if Failed(hr) {
      err.SetErrorCode(ErrIndexBuffer, hr);
      ReleaseMesh(ledger, m);
      return false;
    }
    return true;
  }

  /** The accumulator the next mesh is made from, and the creation of meshes from it. */
  class MeshManager {
    var vertexList: seq<Vertex>
    const factory: Factory
    const ledger: Ledger
    const err: Errors.ErrorHandler

    constructor (factory: Factory, ledger: Ledger, err: Errors.ErrorHandler)
      ensures vertexList == [] && this.factory == factory && this.ledger == ledger && this.err == err
    {
      vertexList := [];
      this.factory, this.ledger, this.err := factory, ledger, err;
    }

    /**
     * Makes a mesh from the accumulated vertices, which stay in the
     * accumulator. Without a device or without vertices nothing is made and
     * the reason is reported; a failed vertex buffer is reported and the mesh
     * is released.
     */
    method CreateMesh(device: Ptr) returns (m: Mesh?)
      modifies factory, ledger, err
      ensures ledger.released == old(ledger.released)
      ensures device.Null? ==> m == null && err.lastError == ErrMeshNotInitialized && factory.requests == old(factory.requests)
      ensures device.Obj? && vertexList == [] ==>
        m == null && err.lastError == ErrNoVertices && factory.requests == old(factory.requests)
      ensures device.Obj? && vertexList != [] ==>
        factory.requests == old(factory.requests) + [VertexBuffer(Snapshot(vertexList))]
      ensures device.Obj? && vertexList != [] && Failed(old(factory.Next())) ==>
        m == null && Reported(err.lastError, factory.tape, factory.requests, ErrVertexBuffer)
      ensures device.Obj? && vertexList != [] && !Failed(old(factory.Next())) ==>
        m != null && fresh(m) && err.lastError == old(err.lastError) &&
        m.vertexList == Snapshot(vertexList) && m.vertexCount == |m.vertexList| &&
        m.indices == None && m.indexCount == 0 &&
        m.vertexBuffer == Obj(old(factory.nextId)) && m.indexBuffer == Null &&
        factory.nextId == old(factory.nextId) + 1
    {
      if device.Null? {
        err.SetError(ErrMeshNotInitialized);
        return null;
      }
      if |vertexList| == 0 {
        err.SetError(ErrNoVertices);
        return null;
      }
      var newMesh := new Mesh();
      newMesh.vertexCount := U32(|vertexList|);
      newMesh.vertexList := vertexList[..newMesh.vertexCount];
      var ok := AddVertexBuffer(newMesh, factory, ledger, err);
      if !ok {
        return null;
      }
      return newMesh;
    }

    /**
     * Makes a mesh from the accumulated vertices and the first `indexCount`
     * indices given. No indices is reported before anything is made; after
     * the plain mesh is made, a failed index buffer is reported and the
     * mesh, with its vertex buffer, is released.
     */
    method CreateMeshIndexed(indices: seq<nat>, indexCount: nat, device: Ptr) returns (m: Mesh?)
      requires indexCount <= |indices| && indexCount < U32Limit
      modifies factory, ledger, err
      ensures device.Null? ==> m == null && err.lastError == ErrMeshNotInitialized && factory.requests == old(factory.requests)
      ensures device.Obj? && indexCount == 0 ==>
        m == null && err.lastError == ErrNoIndices && factory.requests == old(factory.requests)
      ensures device.Obj? && indexCount != 0 && vertexList == [] ==>
        m == null && err.lastError == ErrNoVertices && factory.requests == old(factory.requests)
      ensures device.Obj? && indexCount != 0 && vertexList != [] ==>
        |factory.requests| > |old(factory.requests)| &&
        factory.requests[..|old(factory.requests)| + 1] == old(factory.requests) + [VertexBuffer(Snapshot(vertexList))]
      ensures device.Obj? && indexCount != 0 && vertexList != [] && Failed(old(factory.Next())) ==>
        m == null && factory.requests == old(factory.requests) + [VertexBuffer(Snapshot(vertexList))] &&
        Reported(err.lastError, factory.tape, factory.requests, ErrVertexBuffer) &&
        ledger.released == old(ledger.released)
      ensures device.Obj? && indexCount != 0 && vertexList != [] && !Failed(old(factory.Next())) ==>
        factory.requests == old(factory.requests) + [VertexBuffer(Snapshot(vertexList)), IndexBuffer(indices[..indexCount])]
      ensures device.Obj? && indexCount != 0 && vertexList != [] && !Failed(old(factory.Next())) &&
              Failed(OutcomeAt(factory.tape, |old(factory.requests)| + 1)) ==>
        m == null && Reported(err.lastError, factory.tape, factory.requests, ErrIndexBuffer) &&
        ledger.released == old(ledger.released) + [old(factory.nextId)]
      ensures device.Obj? && indexCount != 0 && vertexList != [] && !Failed(old(factory.Next())) &&
              !Failed(OutcomeAt(factory.tape, |old(factory.requests)| + 1)) ==>
        m != null
      ensures m != null ==>
        fresh(m) && err.lastError == old(err.lastError) && ledger.released == old(ledger.released) &&
        m.vertexList == Snapshot(vertexList) && m.vertexCount == |m.vertexList| &&
        m.indices == Some(indices[..indexCount]) && m.indexCount == indexCount &&
        m.vertexBuffer == Obj(old(factory.nextId)) && m.indexBuffer == Obj(old(factory.nextId) + 1)
    {
      if device.Null? {
        err.SetError(ErrMeshNotInitialized);
        return null;
      }
      if indexCount == 0 {
        err.SetError(ErrNoIndices);
        return null;
      }
      var newMesh := CreateMesh(device);
      if newMesh == null {
        return null;
      }
      newMesh.indexCount := indexCount;
      newMesh.indices := Some(indices[..indexCount]);
      var ok := AddIndexBuffer(newMesh, factory, ledger, err);
      if !ok {
        return null;
      }
      return newMesh;
    }
  }

  // -------------------------------------------------------------- draw

  /** Sets the topology of a valid draw mode, or reports an invalid one. */
  method ApplyTopology(mode: int, log: CallLog, err: Errors.ErrorHandler)
    modifies log, err
    ensures log.calls == old(log.calls) + (if TopologyFor(mode).Some? then [SetTopology(TopologyFor(mode).value)] else [])
    ensures TopologyFor(mode).Some? ==> err.lastError == old(err.lastError)
    ensures TopologyFor(mode).None? ==> err.lastError == ErrInvalidDrawMode
  {
    var t := TopologyFor(mode);
    if t.None? {
      err.SetError(ErrInvalidDrawMode);
      return;
    }
    log.Issue(SetTopology(t.value));
  }

  /** Binds the shaders, the pixel shader's view and the mesh's vertex buffer. */
  method BindResources(vertexShader: Ptr, pixelShader: Ptr, view: Ptr, vertexBuffer: Ptr, log: CallLog)
    modifies log
    ensures log.calls == old(log.calls) + [SetVertexShader(vertexShader), SetPixelShader(pixelShader),
                                           SetShaderResource(view), SetVertexBuffer(vertexBuffer)]
  {
    log.Issue(SetVertexShader(vertexShader));
    log.Issue(SetPixelShader(pixelShader));
    log.Issue(SetShaderResource(view));
    log.Issue(SetVertexBuffer(vertexBuffer));
  }

  /** Issues the draw: plain, or indexed when the mesh has indices. */
  method IssueDraw(m: Mesh, log: CallLog)
    modifies log
    ensures log.calls == old(log.calls) + DrawCalls(m.vertexCount, m.indexCount, m.indexBuffer)
  {
    if m.indexCount == 0 {
      log.Issue(Draw(m.vertexCount));
    } else {
      log.Issue(SetIndexBuffer(m.indexBuffer));
      log.Issue(DrawIndexed(m.indexCount));
    }
  }

  /** The view a texture contributes: none for a null texture. */
  function ViewOf(texture: Textures.Texture?): Option<Ptr>
    reads texture
  {
    if texture == null then None else Some(texture.view)
  }

  /** The calls of a draw up to the constants: the topology, or the report of an invalid mode, then the bindings. */
  method BindForDraw(mode: int, vertexShader: Ptr, pixelShader: Ptr, view: Ptr, vertexBuffer: Ptr,
                     log: CallLog, err: Errors.ErrorHandler)
    modifies log, err
    ensures log.calls == old(log.calls) + BindCalls(mode, vertexShader, pixelShader, view, vertexBuffer)
    ensures err.lastError == (if TopologyFor(mode).Some? then old(err.lastError) else ErrInvalidDrawMode)
  {
    ApplyTopology(mode, log, err);
    BindResources(vertexShader, pixelShader, view, vertexBuffer, log);
  }

  /** Proof helper: regroups the calls of a draw issued one stretch after another. */
  lemma Group3(s: seq<Call>, a: seq<Call>, b: seq<Call>, c: seq<Call>)
    ensures s + a + b + c == s + (a + b + c)
  {
  }

  /** The draw itself, once the interface has a context: bindings, constants, then the draw call. */
  method DrawWithContext(m: Mesh, mode: int, view: Ptr, vertexShader: Ptr, pixelShader: Ptr,
                         d3d: D3DInterface.D3D)
    requires d3d.context.Obj?
    modifies d3d.log, d3d.err
    ensures d3d.log.calls == old(d3d.log.calls) +
      (BindCalls(mode, vertexShader, pixelShader, view, m.vertexBuffer) +
       [UpdateConstants(d3d.perObjectBuffer, d3d.constants), SetConstantBuffer(d3d.perObjectBuffer)] +
       DrawCalls(m.vertexCount, m.indexCount, m.indexBuffer))
    ensures d3d.err.lastError == (if TopologyFor(mode).Some? then old(d3d.err.lastError) else ErrInvalidDrawMode)
  {
    var log := d3d.log;
    ghost var bind := BindCalls(mode, vertexShader, pixelShader, view, m.vertexBuffer);
    ghost var constants := [UpdateConstants(d3d.perObjectBuffer, d3d.constants), SetConstantBuffer(d3d.perObjectBuffer)];
    ghost var draw := DrawCalls(m.vertexCount, m.indexCount, m.indexBuffer);
    BindForDraw(mode, vertexShader, pixelShader, view, m.vertexBuffer, log, d3d.err);
    d3d.UpdateConstantBuffer();
    IssueDraw(m, log);
    Group3(old(log.calls), bind, constants, draw);
  }

  /**
   * Draws a mesh with the given shaders through the interface's immediate
   * context. Without a context the draw is reported and nothing is issued,
   * whatever the mesh, even a null one. An invalid draw mode is reported and
   * the topology is left as it was, but the draw goes on.
   */
  method DrawMesh(m: Mesh?, mode: int, texture: Textures.Texture?, vertexShader: Ptr, pixelShader: Ptr,
                  d3d: D3DInterface.D3D)
    requires d3d.context.Obj? ==> m != null
    modifies d3d.log, d3d.err
    ensures d3d.context.Null? ==> d3d.log.calls == old(d3d.log.calls) && d3d.err.lastError == ErrDrawNotInitialized
    ensures d3d.context.Obj? ==>
      d3d.log.calls == old(d3d.log.calls) +
        (BindCalls(mode, vertexShader, pixelShader, BoundView(d3d.pixelMode, ViewOf(texture)), m.vertexBuffer) +
         [UpdateConstants(d3d.perObjectBuffer, d3d.constants), SetConstantBuffer(d3d.perObjectBuffer)] +
         DrawCalls(m.vertexCount, m.indexCount, m.indexBuffer))
    ensures d3d.context.Obj? ==>
      d3d.err.lastError == (if TopologyFor(mode).Some? then old(d3d.err.lastError) else ErrInvalidDrawMode)
  {
    if d3d.context.Null? {
      d3d.err.SetError(ErrDrawNotInitialized);
      return;
    }
    DrawWithContext(m, mode, BoundView(d3d.GetPixelShaderMode(), ViewOf(texture)), vertexShader, pixelShader, d3d);
  }
}

=== FILE: shader.dfy ===
/**
 * The pixel shader manager: compiles a pixel shader from a source file,
 * creates the GPU shader and keeps the loaded shaders in a set, one entry
 * per file name; releasing a shader releases its GPU object and drops the
 * entry.
 */
module Shaders {
  import opened Dgl
  import opened Backend
  import WideStrings

  /** `D3D_FEATURE_LEVEL_11_0`. */
  const FeatureLevel11: int := 0xb000

  /** The compiler profile: shader model 5 on feature level 11 and up, shader model 4 below. */
  function ProfileFor(featureLevel: int): (profile: string)
    ensures profile == "ps_5_0" <==> featureLevel >= FeatureLevel11
    ensures profile == "ps_4_0" <==> featureLevel < FeatureLevel11
  {
    if featureLevel >= FeatureLevel11 then "ps_5_0" else "ps_4_0"
  }

  /** The file name as the compiler gets it: a wide string of the same length, filled in place. */
  method WidenName(filename: seq<Byte>) returns (wide: array<WChar>)
    ensures fresh(wide) && wide[..] == WideStrings.Widened(filename)
  {
    wide := new WChar[|filename|](_ => 0);
    for i := 0 to |filename|
      invariant forall j :: 0 <= j < i ==> wide[j] == WideStrings.WideChar(filename[j])
    {
      wide[i] := WideStrings.WideChar(filename[i]);
    }
  }

  /** The loaded shaders as the set holds them: the GPU object of the entry for each file name. */
  type ShaderSet = map<seq<Byte>, Ptr>

  /** Inserting into the set: an entry for the same file name already there is kept. */
  function Insert(shaders: ShaderSet, shader: PixelShader): (r: ShaderSet)
    ensures shader.filename in r && r.Keys == shaders.Keys + {shader.filename}
    ensures shader.filename in shaders ==> r == shaders
    ensures shader.filename !in shaders ==> r[shader.filename] == shader.shader
    ensures forall f :: f in shaders ==> f in r && r[f] == shaders[f]
  {
    if shader.filename in shaders then shaders else shaders[shader.filename := shader.shader]
  }

  /** Releasing a shader just loaded under a new name gives back the set as it was. */
  lemma InsertThenErase(shaders: ShaderSet, shader: PixelShader)
    requires shader.filename !in shaders
    ensures Insert(shaders, shader) - {shader.filename} == shaders
  {
    assert Insert(shaders, shader) == shaders[shader.filename := shader.shader];
  }

  /** Inserting twice under one name keeps the first entry. */
  lemma InsertIdempotent(shaders: ShaderSet, first: PixelShader, second: PixelShader)
    requires first.filename == second.filename
    ensures Insert(Insert(shaders, first), second) == Insert(shaders, first)
  {
  }

  class ShaderManager {
    var pixelShaders: ShaderSet
    const factory: Factory
    const ledger: Ledger

    constructor (factory: Factory, ledger: Ledger)
      ensures pixelShaders == map[] && this.factory == factory && this.ledger == ledger
    {
      pixelShaders := map[];
      this.factory := factory;
      this.ledger := ledger;
    }

    /**
     * Compiles the file, then creates the GPU shader from the bytecode and
     * inserts it. The file is compiled on every call, also when its name is
     * in the set; the set is consulted only by the insertion, which keeps an
     * existing entry and returns it. A failed compilation releases the
     * diagnostics when the compiler produced some; neither failure changes
     * the set.
     */
    method LoadPixelShader(filename: seq<Byte>, featureLevel: int) returns (s: Option<PixelShader>)
      modifies this`pixelShaders, factory, ledger
      ensures |factory.requests| > |old(factory.requests)| &&
              factory.requests[|old(factory.requests)|] ==
                CompileShader(WideStrings.Widened(filename), ProfileFor(featureLevel))
      ensures Failed(old(factory.Next())) ==>
        s.None? && pixelShaders == old(pixelShaders) &&
        factory.requests == old(factory.requests) + [CompileShader(WideStrings.Widened(filename), ProfileFor(featureLevel))] &&
        ledger.released == old(ledger.released) + (if HasDiagnostics(old(factory.Next())) then [old(factory.nextId)] else [])
      ensures !Failed(old(factory.Next())) ==>
        factory.requests ==
          old(factory.requests) + [CompileShader(WideStrings.Widened(filename), ProfileFor(featureLevel)),
                                   PixelShaderObject(Obj(old(factory.nextId)))] &&
        ledger.released == old(ledger.released)
      ensures !Failed(old(factory.Next())) && Failed(OutcomeAt(factory.tape, |old(factory.requests)| + 1)) ==>
        s.None? && pixelShaders == old(pixelShaders)
      ensures !Failed(old(factory.Next())) && !Failed(OutcomeAt(factory.tape, |old(factory.requests)| + 1)) ==>
        pixelShaders == Insert(old(pixelShaders), PixelShader(filename, Obj(old(factory.nextId) + 1))) &&
        s == Some(PixelShader(filename, pixelShaders[filename]))
    {
      var wide := WidenName(filename);
      var profile := ProfileFor(featureLevel);
      var hr, bytecode, diagnostics := factory.Compile(CompileShader(wide[..], profile));
      if Failed(hr) {
        // a failed compilation yields no bytecode, so only diagnostics, if any, are released
        if diagnostics.Obj? {
          ledger.Release(diagnostics);
        }
        return None;
      }
      var shader;
      hr, shader := factory.Create(PixelShaderObject(bytecode));
      if Failed(hr) {
        return None;
      }
      pixelShaders := Insert(pixelShaders, PixelShader(filename, shader));
      return Some(PixelShader(filename, pixelShaders[filename]));
    }

    /** Releases the shader's GPU object when it has one and erases its entry; no shader, no effect. */
    method Release(shader: Option<PixelShader>)
      modifies this`pixelShaders, ledger
      ensures shader.None? ==> pixelShaders == old(pixelShaders) && ledger.released == old(ledger.released)
      ensures shader.Some? ==>
        pixelShaders == old(pixelShaders) - {shader.value.filename} &&
        shader.value.filename !in pixelShaders &&
        ledger.released == old(ledger.released) + IdOf(shader.value.shader)
    {
      if shader.None? {
        return;
      }
      if shader.value.shader.Obj? {
        ledger.Release(shader.value.shader);
      }
      pixelShaders := pixelShaders - {shader.value.filename};
    }
  }
}

=== FILE: texture.dfy ===
/**
 * The texture manager: textures loaded from an image file or made from
 * pixels in memory, each a GPU texture with the view shaders sample it
 * through, and their release.
 */
module Textures {
  import opened Dgl
  import opened Backend
  import Errors
  import WideStrings

  const ErrNotInitialized: string := "Graphics is not initialized"

  /** The report for a file that could not be loaded, before the status code. */
  function FileLoadText(fileName: seq<Byte>): string
  {
    "Problem loading texture " + WideStrings.Text(fileName) + " from file: error "
  }

  /** A loaded texture: the GPU texture and its shader resource view, both null until made. */
  class Texture {
    var texture: Ptr
    var view: Ptr

    constructor ()
      ensures texture == Null && view == Null
    {
      texture := Null;
      view := Null;
    }
  }

  /** The ids a release of the texture gives back, the view first. */
  function TextureIds(t: Texture): seq<nat>
    reads t
  {
    IdOf(t.view) + IdOf(t.texture)
  }

  /** The bytes from one row of pixels to the next: four per pixel, as a 32-bit `unsigned`. */
  function RowPitch(width: int): (pitch: nat)
    ensures pitch < U32Limit && pitch % 4 == 0
    ensures 0 <= width < U32Limit / 4 ==> pitch == width * 4
  {
    U32(width * 4)
  }

  /**
   * A negative width is not rejected: its pitch wraps around to 2^32 less
   * four bytes per missing pixel, an unsigned pitch instead of an error.
   */
  lemma NegativeWidthPitch(width: int)
    requires -U32Limit / 4 <= width < 0
    ensures RowPitch(width) == U32Limit + 4 * width
  {
    assert (U32Limit + 4 * width) % U32Limit == (width * 4) % U32Limit;
  }

  /**
   * What a texture from memory asks of the backend: the texture from the
   * pixels, then a view of the texture that will have id `textureId`.
   */
  function MemoryPlan(width: int, height: int, pixels: seq<Byte>, textureId: nat): seq<Request>
  {
    [Texture2D(U32(width), U32(height), RowPitch(width), pixels), TextureView(Obj(textureId))]
  }

  /** The file name as the loader gets it: each byte widened, appended one after another. */
  method WidenFileName(fileName: seq<Byte>) returns (wide: seq<WChar>)
    ensures wide == WideStrings.Widened(fileName)
  {
    wide := [];
    var i := 0;
    while i < |fileName|
      invariant i <= |fileName| && |wide| == i
      invariant forall j :: 0 <= j < i ==> wide[j] == WideStrings.WideChar(fileName[j])
    {
      wide := wide + [WideStrings.WideChar(fileName[i])];
      i := i + 1;
    }
  }

  /** `ReleaseTexture`: a null texture is ignored; otherwise the view, then the texture, each when present. */
  method ReleaseTexture(ledger: Ledger, t: Texture?)
    modifies ledger
    ensures ledger.released == old(ledger.released) + (if t == null then [] else TextureIds(t))
  {
    if t == null {
      return;
    }
    if t.view.Obj? {
      ledger.Release(t.view);
    }
    if t.texture.Obj? {
      ledger.Release(t.texture);
    }
  }

  /**
   * Loads a texture from an image file. Without a device nothing is
   * attempted. When the loader fails, the message names the file and the
   * status code, and no texture is returned: the loader makes the texture
   * and its view together or neither.
   */
  method LoadTexture(fileName: seq<Byte>, device: Ptr, factory: Factory, ledger: Ledger, err: Errors.ErrorHandler)
    returns (t: Texture?)
    modifies factory, ledger, err
    ensures ledger.released == old(ledger.released)
    ensures device.Null? ==>
      t == null && err.lastError == ErrNotInitialized && factory.requests == old(factory.requests)
    ensures device.Obj? ==>
      factory.requests == old(factory.requests) + [TextureFromFile(WideStrings.Widened(fileName))]
    ensures device.Obj? && Failed(old(factory.Next())) ==>
      t == null && Reported(err.lastError, factory.tape, factory.requests, FileLoadText(fileName))
    ensures device.Obj? && !Failed(old(factory.Next())) ==>
      t != null && fresh(t) && t.texture == Obj(old(factory.nextId)) && t.view == Obj(old(factory.nextId) + 1) &&
      err.lastError == old(err.lastError)
  {
    if device.Null? {
      err.SetError(ErrNotInitialized);
      return null;
    }
    var newTexture := new Texture();
    var wide := WidenFileName(fileName);
    var hr, resource, view := factory.CreatePair(TextureFromFile(wide));
    newTexture.view := view;
    if Failed(hr) {
      err.SetError(FileLoadText(fileName) + Errors.DecimalString(hr));
      ReleaseTexture(ledger, newTexture);
      return null;
    }
    newTexture.texture := resource;
    return newTexture;
  }

  /**
   * A step of a texture from memory: request `i` of the plan, its result
   * stored in the texture; when it fails, what the texture holds is released.
   */
  method CreatePart(t: Texture, ghost a: seq<Request>, plan: seq<Request>, i: nat, text: string,
                    factory: Factory, ledger: Ledger, err: Errors.ErrorHandler)
    returns (hr: int)
    requires i < 2 && |plan| == 2 && Progress(factory.tape, a, factory.requests, plan, i)
    requires i == 0 ==> t.texture == Null && t.view == Null
    requires i == 1 ==> t.view == Null
    modifies t, factory, ledger, err
    ensures hr == old(factory.Next()) && |factory.requests| == |old(factory.requests)| + 1
    ensures i == 0 ==> t.texture == (if Failed(hr) then Null else Obj(old(factory.nextId))) && t.view == Null
    ensures i == 1 ==> t.view == (if Failed(hr) then Null else Obj(old(factory.nextId))) && t.texture == old(t.texture)
    ensures Failed(hr) ==> Ran(factory.tape, a, factory.requests, plan) && Stopped(factory.tape, a, factory.requests) &&
                           Reported(err.lastError, factory.tape, factory.requests, text) &&
                           ledger.released == old(ledger.released) + IdOf(old(t.texture))
    ensures !Failed(hr) ==> Progress(factory.tape, a, factory.requests, plan, i + 1) &&
                            err.lastError == old(err.lastError) && ledger.released == old(ledger.released) &&
                            factory.nextId == old(factory.nextId) + 1
  {
    var p;
    hr, p := Attempt(factory, err, a, plan, i, text);
    if i == 0 {
      t.texture := p;
    } else {
      t.view := p;
    }
    if Failed(hr) {
      ReleaseTexture(ledger, t);
    }
  }

  /**
   * Makes a texture from 32-bit pixels in memory. Missing pixels or a zero
   * size return no texture and report nothing. Otherwise the texture, then
   * its view, are created; a failure reports its status code, releases
   * what was made and returns no texture.
   */
  method LoadTextureFromMemory(data: Option<seq<Byte>>, width: int, height: int, device: Ptr,
                               factory: Factory, ledger: Ledger, err: Errors.ErrorHandler)
    returns (t: Texture?)
    modifies factory, ledger, err
    ensures device.Null? ==>
      t == null && err.lastError == ErrNotInitialized &&
      factory.requests == old(factory.requests) && ledger.released == old(ledger.released)
    ensures device.Obj? && (data.None? || width == 0 || height == 0) ==>
      t == null && err.lastError == old(err.lastError) &&
      factory.requests == old(factory.requests) && ledger.released == old(ledger.released)
    ensures device.Obj? && data.Some? && width != 0 && height != 0 ==>
      Ran(factory.tape, old(factory.requests), factory.requests, MemoryPlan(width, height, data.value, old(factory.nextId))) &&
      (Stopped(factory.tape, old(factory.requests), factory.requests) <==> t == null)
    ensures device.Obj? && data.Some? && width != 0 && height != 0 && |factory.requests| == |old(factory.requests)| + 1 ==>
      Reported(err.lastError, factory.tape, factory.requests, ErrTextureMemory) &&
      ledger.released == old(ledger.released)
    ensures device.Obj? && t == null && |factory.requests| == |old(factory.requests)| + 2 ==>
      Reported(err.lastError, factory.tape, factory.requests, ErrTextureView) &&
      ledger.released == old(ledger.released) + [old(factory.nextId)]
    ensures t != null ==>
      fresh(t) && t.texture == Obj(old(factory.nextId)) && t.view == Obj(old(factory.nextId) + 1) &&
      err.lastError == old(err.lastError) && ledger.released == old(ledger.released)
  {
    if device.Null? {
      err.SetError(ErrNotInitialized);
      return null;
    }
    if data.None? || width == 0 || height == 0 {
      return null;
    }
    var plan := MemoryPlan(width, height, data.value, factory.nextId);
    RanStart(factory.tape, old(factory.requests), plan);
    var newTexture := new Texture();
    var hr := CreatePart(newTexture, old(factory.requests), plan, 0, ErrTextureMemory, factory, ledger, err);
    if Failed(hr) {
      return null;
    }
    hr := CreatePart(newTexture, old(factory.requests), plan, 1, ErrTextureView, factory, ledger, err);
    if Failed(hr) {
      return null;
    }
    Done(factory.tape, old(factory.requests), factory.requests, plan);
    return newTexture;
  }
}

=== FILE: wide_strings.dfy ===
/**
 * File names arrive as C strings of bytes and are handed to the backend as
 * Windows wide strings. Each byte goes through a plain conversion of `char`
 * to `wchar_t`; `char` is signed with the Microsoft compiler, so bytes from
 * 0x80 up are sign-extended.
 */
module WideStrings {
  import opened Dgl

  /** The UTF-16 unit a byte of a C string becomes. */
  function WideChar(b: Byte): (w: WChar)
    ensures b < 0x80 ==> w == b
    ensures b >= 0x80 ==> w >= 0xFF80
  {
    if b < 0x80 then b else b + 0xFF00
  }

  /** The byte a wide character is truncated back to. */
  function NarrowChar(w: WChar): Byte
  {
    w % 0x100
  }

  /** The wide string a byte string becomes, character by character. */
  function Widened(s: seq<Byte>): (w: seq<WChar>)
    ensures |w| == |s|
    ensures forall i :: 0 <= i < |s| ==> w[i] == WideChar(s[i])
  {
    seq(|s|, i requires 0 <= i < |s| => WideChar(s[i]))
  }

  function Narrowed(w: seq<WChar>): (s: seq<Byte>)
    ensures |s| == |w|
    ensures forall i :: 0 <= i < |w| ==> s[i] == NarrowChar(w[i])
  {
    seq(|w|, i requires 0 <= i < |w| => NarrowChar(w[i]))
  }

  /** Widening loses nothing: truncating each unit back gives the original name. */
  lemma NarrowWidened(s: seq<Byte>)
    ensures Narrowed(Widened(s)) == s
  {
    assert forall i :: 0 <= i < |s| ==> NarrowChar(WideChar(s[i])) == s[i];
  }

  /** Two names are passed to the backend as the same wide string only when they are the same name. */
  lemma WidenedInjective(s: seq<Byte>, t: seq<Byte>)
    requires Widened(s) == Widened(t)
    ensures s == t
  {
    NarrowWidened(s);
    NarrowWidened(t);
  }

  /** The text a byte string inserts into a message, one character per byte. */
  function Text(s: seq<Byte>): (t: string)
    ensures |t| == |s|
  {
    seq(|s|, i requires 0 <= i < |s| => s[i] as char)
  }
}

=== FILE: windows_system.dfy ===
/**
 * The part of the window system that reacts to window messages: whether
 * the window still exists, whether the user is dragging its border, and
 * what each message passes on to the input state and to the camera.
 */
module WindowMessages {
  import opened Dgl
  import Input

  const WM_DESTROY: int := 0x0002
  const WM_MOVE: int := 0x0003
  const WM_SIZE: int := 0x0005
  const WM_QUIT: int := 0x0012
  const WM_KEYDOWN: int := 0x0100
  const WM_KEYUP: int := 0x0101
  const WM_SYSKEYDOWN: int := 0x0104
  const WM_SYSKEYUP: int := 0x0105
  const WM_MOUSEWHEEL: int := 0x020A
  const WM_SIZING: int := 0x0214
  const WM_EXITSIZEMOVE: int := 0x0232

  const SIZE_RESTORED: int := 0
  const SIZE_MAXIMIZED: int := 2
  const VK_F10: Byte := 0x79
  const WHEEL_DELTA: int := 120

  /** Values of a 64-bit `WPARAM` lie below this bound. */
  const WParamLimit: int := 0x1_0000_0000_0000_0000

  /** The messages the handler acts on; it declines every other one. */
  predicate Handled(message: int)
  {
    message == WM_DESTROY || message == WM_QUIT || message == WM_MOVE || message == WM_SIZE ||
    message == WM_SIZING || message == WM_EXITSIZEMOVE || message == WM_KEYDOWN || message == WM_KEYUP ||
    message == WM_SYSKEYDOWN || message == WM_SYSKEYUP || message == WM_MOUSEWHEEL
  }

  /** The key a key message names: the parameter cast to `char`, then taken as `unsigned char`, its low byte. */
  function KeyOf(wParam: nat): (key: Byte)
    ensures wParam < 0x100 ==> key == wParam
  {
    wParam % 0x100
  }

  /** The high 16 bits of the parameter read as a signed `short`, `GET_WHEEL_DELTA_WPARAM`. */
  function WheelDelta(wParam: nat): (d: int)
    ensures -0x8000 <= d < 0x8000
  {
    var high := (wParam / 0x1_0000) % 0x1_0000;
    if high < 0x8000 then high else high - 0x1_0000
  }

  /** C's `int` division, which truncates toward zero. */
  function TruncDiv(a: int, b: int): (q: int)
    requires b > 0
    ensures a >= 0 ==> q == a / b
    ensures a < 0 ==> q == -((-a) / b)
  {
    if a >= 0 then a / b else -((-a) / b)
  }

  /** Whole wheel notches in the parameter of a wheel message; partial notches round toward zero. */
  function WheelSteps(wParam: nat): (steps: int)
    ensures -273 <= steps <= 273
    ensures WheelDelta(wParam) >= 0 ==> steps >= 0
    ensures WheelDelta(wParam) < 0 ==> steps <= 0
  {
    TruncDiv(WheelDelta(wParam), WHEEL_DELTA)
  }

  /** The parameter a wheel message carries for `delta` units of movement. */
  function WheelParam(delta: int, keys: nat): (wParam: nat)
    requires -0x8000 <= delta < 0x8000 && keys < 0x1_0000
  {
    (if delta < 0 then delta + 0x1_0000 else delta) * 0x1_0000 + keys
  }

  /** The delta is read back from the parameter, whatever key flags the low word holds. */
  lemma WheelDeltaRoundTrip(delta: int, keys: nat)
    requires -0x8000 <= delta < 0x8000 && keys < 0x1_0000
    ensures WheelDelta(WheelParam(delta, keys)) == delta
  {
    var high := if delta < 0 then delta + 0x1_0000 else delta;
    assert WheelParam(delta, keys) / 0x1_0000 == high;
  }

  /** One notch away from or toward the user scrolls by exactly one step, and opposite moves cancel. */
  lemma WheelNotch(keys: nat)
    requires keys < 0x1_0000
    ensures WheelSteps(WheelParam(WHEEL_DELTA, keys)) == 1
    ensures WheelSteps(WheelParam(-WHEEL_DELTA, keys)) == -1
  {
    WheelDeltaRoundTrip(WHEEL_DELTA, keys);
    WheelDeltaRoundTrip(-WHEEL_DELTA, keys);
  }

  /** Whether a size message resizes the window's contents: maximized, or restored outside a border drag. */
  predicate SizeResets(wParam: nat, resizing: bool)
  {
    wParam == SIZE_MAXIMIZED || (wParam == SIZE_RESTORED && !resizing)
  }

  class WindowsSystem {
    /** The window handle; null once the window is destroyed or the application quits. */
    var windowHandle: Ptr
    /** The user is dragging the window's border. */
    var resizing: bool

    constructor (windowHandle: Ptr)
      ensures this.windowHandle == windowHandle && !resizing
    {
      this.windowHandle := windowHandle;
      resizing := false;
    }

    function GetWindowExists(): (exists_: bool)
      reads this
      ensures exists_ <==> windowHandle != Null
    {
      windowHandle != Null
    }

    /**
     * Handles one window message. The result slot is always set to 0; the
     * message is declined, with nothing changed, unless it is one of those
     * listed. `resetWindow` says whether the camera is asked to resize the
     * window's contents.
     */
    method HandleWindowsMessage(message: int, wParam: nat, input: Input.InputSystem)
      returns (handled: bool, result: int, resetWindow: bool)
      requires wParam < WParamLimit && input.Valid()
      modifies this, input.keyState, input.err, input`mouseWheelDelta
      ensures result == 0 && handled == Handled(message)
      ensures resetWindow <==>
        (message == WM_SIZE && SizeResets(wParam, old(resizing))) || (message == WM_EXITSIZEMOVE && old(resizing))
      ensures windowHandle == (if message == WM_DESTROY || message == WM_QUIT then Null else old(windowHandle))
      ensures (message == WM_DESTROY || message == WM_QUIT) ==> !GetWindowExists()
      ensures resizing == (if message == WM_SIZING then true else if message == WM_EXITSIZEMOVE then false
                           else old(resizing))
      ensures input.keyState[..] ==
        if message == WM_KEYDOWN || message == WM_KEYUP then
          Input.SetKey(old(input.keyState[..]), KeyOf(wParam), message == WM_KEYDOWN)
        else if (message == WM_SYSKEYDOWN || message == WM_SYSKEYUP) && wParam == VK_F10 then
          Input.SetKey(old(input.keyState[..]), VK_F10, message == WM_SYSKEYDOWN)
        else old(input.keyState[..])
      ensures input.mouseWheelDelta ==
        if message == WM_MOUSEWHEEL then WheelSteps(wParam) else old(input.mouseWheelDelta)
      ensures input.err.lastError != old(input.err.lastError) ==>
        (message == WM_KEYDOWN || message == WM_KEYUP || message == WM_SYSKEYDOWN || message == WM_SYSKEYUP) &&
        input.err.lastError == Input.ErrSetKeyState
    {
      result := 0;
      resetWindow := false;
      handled := true;
      if message == WM_DESTROY || message == WM_QUIT {
        windowHandle := Null;
      } else if message == WM_MOVE {
        // the window is only invalidated, which forces a redraw
      } else if message == WM_SIZE {
        resetWindow := SizeResets(wParam, resizing);
      } else if message == WM_SIZING {
        resizing := true;
      } else if message == WM_EXITSIZEMOVE {
        resetWindow := resizing;
        resizing := false;
      } else if message == WM_KEYDOWN || message == WM_KEYUP {
        input.SetKeyState(KeyOf(wParam), message == WM_KEYDOWN);
      } else if message == WM_SYSKEYDOWN || message == WM_SYSKEYUP {
        if wParam == VK_F10 {
          input.SetKeyState(VK_F10, message == WM_SYSKEYDOWN);
        }
      } else if message == WM_MOUSEWHEEL {
        input.SetMouseScrollDelta(WheelSteps(wParam));
      } else {
        handled := false;
      }
    }
  }
}
